=== FILE: README.md ===
# Landslide risk rules, modelled in Dafny

This project models the risk logic of a landslide-monitoring web service for
districts of Uttar Pradesh (`utils.py`), and proves properties of the model:

- **Two risk scorers.** The basic scorer weighs rainfall, soil moisture and
  temperature 0.5/0.3/0.2. The enhanced scorer adds terrain and vegetation
  and weighs the five inputs 0.45/0.25/0.15/0.10/0.05. Both scale the sum to
  0-10, add a historical similarity bonus, and cap the result at 10.
- **The historical bonus.** It is `2 * similar / total`. A record is similar
  when its rainfall, temperature and soil moisture lie strictly within 10,
  5 and 10 of the current values.
- **The alert ladder.** A score of at least 7 gives level 10, at least 5
  gives level 8, at least 3 gives level 5, and anything lower gives no alert.
- **Infrastructure resilience.** A profile comes from a table of six
  districts or a default profile. Its sub-factors are combined with a
  risk-adaptability term, a random variation is added, and the result is
  clamped to [0, 10]. Of the sub-factors only the building-age, density and
  bridge-age terms are clamped to [0, 10] and the bridge count is capped at
  10; road quality, drainage, utility and readiness are the plain percentage
  divided by 10.
- **The assessment run.** It scores every active monitored location against
  the latest reading, queues an assessment row and, for scores of at least 5,
  an alert row, and commits once.
- **The grouping of recent assessments by location.** The result keeps the
  insertion order of the dictionary it is built in.

Modules:

- `Entities`: the stored rows as datatypes.
- `RiskScoring`: both scorers and the historical bonus.
- `Alerts`: the alert ladder.
- `Regions`: district coordinates.
- `Resilience`: infrastructure resilience.
- `Assessment`: the run, with a `Session` class holding the pending and
  committed rows.
- `Grouping`: the grouping of recent assessments.

How the model represents the system:

- Database queries become input sequences.
- The random variation of the resilience score becomes a parameter, which
  lies in [-0.3, 0.3) as `np.random.random() * 0.6 - 0.3` does.
- All arithmetic is on unrounded reals.

A history record is a dictionary that may lack any of the three keys the
similarity test reads. The model follows the short-circuit `and`: reading a
missing key raises `KeyError`, and `analyze_historical_data` catches it and
returns 0.0. The run builds its history from `LandslideEvent.to_dict()`
(models.py:76-88), and those dictionaries carry none of the three keys. So
in every run the historical factor is 0; `Assessment.RunIgnoresHistory`
proves this.

Where the docstrings of `utils.py` and the code disagree, the model follows
the code. The scorers promise a "risk_score: float between 0-10"
(utils.py:21), and `find_closest_sensor_data` promises the "closest sensor
data point" (utils.py:438):

- Nothing clamps a score from below. Negative rainfall or soil moisture can
  give a negative score (`RiskScoring.NegativeInputExample`), so the 0-10
  bounds are proved for non-negative inputs.
- Vegetation risk is `1 - min(1, density / 100)`. A negative density is not
  clamped.
- The "closest" sensor reading is the last one in the list, whatever the
  coordinates.
- With a history, neither scorer is monotone in rainfall: more rain can move
  the current conditions out of a record's window and lose the bonus.
  `RiskScoring.HistoryBreaksMonotonicity` and
  `RiskScoring.EnhancedHistoryBreaksMonotonicity` give one record for which
  the score drops from 2.0 to 0.5, and from 2.75 to 1.2, when rainfall rises
  from 0 to 10 mm.

## Model

| member | source | states |
|---|---|---|
| RiskScoring.CappedRatio | utils.py:32-35 | min(1, x/100) is at most 1, is exactly 1 from 100 up, is below 1 under 100, and is non-negative for non-negative x |
| RiskScoring.TemperatureRisk | utils.py:37-40 | the temperature risk lies in [0, 1], is 0 exactly at 15 degrees, and saturates at 35 and above or -5 and below |
| RiskScoring.TemperatureRiskGrowsWithDistance | utils.py:36-39 | extreme temperatures raise the risk: a temperature further from 15 degrees never has a lower risk |
| RiskScoring.RecordTest | utils.py:84-86 | the key-by-key similarity test answers true exactly when all three keys are present and every strict window holds; a complete record never raises; a record lacking rainfall always raises |
| RiskScoring.CountSimilar | utils.py:79-87 | the scan of the list either raises or counts at most as many similar records as there are records |
| RiskScoring.HistoricalRisk | utils.py:62-99 | the bonus lies in [0, 2] and is 0 for an empty list |
| RiskScoring.AnalyzeHistoricalData | utils.py:75-99 | the counting loop returns the bonus of the whole list (2 * similar / total, or 0 when a record raises) and stays within [0, 2] |
| RiskScoring.FailurePersists | utils.py:82-99 | once a prefix of the list raises, the scan of the whole list raises |
| RiskScoring.MissingKeyMasksHistory | utils.py:82-99 | a single record that raises, anywhere in the list, makes the bonus 0 |
| RiskScoring.CompleteHistoryCount | utils.py:79-87 | on complete records the scan never raises; it counts all of them when all are similar and none when none is |
| RiskScoring.CountSimilarCountsIndices | utils.py:79-87 | when no record's test raises (complete records, or records whose missing keys the short-circuit test never reaches), the scan does not raise and the count is the number of indices whose record is similar |
| RiskScoring.BonusIsSimilarShare | utils.py:79-93 | on a non-empty list none of whose tests raises, the bonus is twice the number of similar records over the list length |
| RiskScoring.AllSimilarGivesFullBonus | utils.py:89-93 | a non-empty list of similar records gives the full bonus 2 |
| RiskScoring.NoneSimilarGivesNoBonus | utils.py:89-93 | a history none of whose records is similar gives bonus 0, whether or not some test raises |
| RiskScoring.WindowIsStrict | utils.py:84 | a record exactly 10 mm of rain away does not count |
| RiskScoring.BaseRiskScore | utils.py:24-48 | the weighted sum scaled to 10 is at most 10, and non-negative for non-negative rainfall and soil moisture |
| RiskScoring.RiskScore | utils.py:10-60 | the basic score is at most 10, non-negative for non-negative inputs, equal to the base score for an empty history, and otherwise min(10, base score + the historical bonus), hence between the base score and the base score plus 2 |
| RiskScoring.RiskScoreMonotone | utils.py:32-48 | without history the basic score is non-decreasing in rainfall and soil moisture together |
| RiskScoring.RiskScoreTemperatureMonotone | utils.py:36-48 | without history the basic score never falls as the temperature moves away from 15 degrees |
| RiskScoring.RiskScoreExample | utils.py:24-48 | 120 mm of rain, 15 degrees and 80 percent soil moisture score 7.4 without history |
| RiskScoring.NegativeInputExample | utils.py:32-48 | rainfall of -100 mm at 15 degrees and no soil moisture scores -5 without history: nothing clamps the score from below |
| RiskScoring.RiskScoreSymmetryAndSaturation | utils.py:32-40 | without history the basic score depends on temperature only through the distance from 15, and rainfall or soil moisture at 100 or more saturate |
| RiskScoring.HistoryBreaksMonotonicity | utils.py:50-54 | with a history the basic score is not monotone in rainfall: one record gives 2.0 at 0 mm and 0.5 at 10 mm |
| RiskScoring.Lower | utils.py:273 | lower-casing keeps the length and lower-cases each character |
| RiskScoring.ContainsOccurs | utils.py:273-277 | the substring test `word in s` holds exactly when the word occurs in s at some position |
| RiskScoring.TerrainRisk | utils.py:270-279 | the terrain risk lies in [0.2, 0.9] |
| RiskScoring.TerrainRiskCases | utils.py:270-279 | the risk is 0.9 exactly when the lower-cased terrain contains "mountain", 0.6 exactly when it contains "hill" but not "mountain", 0.2 exactly when it contains "plain" but neither of the other two, and the default 0.5 exactly when the terrain is absent or contains none of the three words |
| RiskScoring.TerrainRiskCaseInsensitive | utils.py:272-278 | a terrain and its lower-cased spelling get the same risk |
| RiskScoring.MountainAbovePlain | utils.py:270-279 | any mountain terrain is strictly riskier than a plain that mentions neither mountain nor hill |
| RiskScoring.UnlistedTerrainExample | utils.py:270-279 | a terrain naming none of the three words gets the default 0.5 |
| RiskScoring.VegetationRisk | utils.py:281-284 | the vegetation risk is 0.5 when the density is absent; for a non-negative density it is at most 1, and it is 0 from 100 up |
| RiskScoring.VegetationRiskInverse | utils.py:280-283 | more vegetation means less risk: a higher density never has a higher vegetation risk |
| RiskScoring.EnhancedRiskScore | utils.py:234-339 | the historical factor lies in [0, 2] and is 0 without history, and with a history the score is at most 10; the factor breakdown, the bounds and monotonicity are stated by EnhancedRiskScoreFactors, EnhancedRiskScoreBounds and EnhancedRiskScoreMonotone |
| RiskScoring.EnhancedRiskScoreFactors | utils.py:250-318 | each factor is its weight times its own risk times 10; the historical factor is the bonus; the score is the factor sum, or that sum plus the bonus capped at 10 when a history is given |
| RiskScoring.EnhancedRiskScoreBounds | utils.py:250-305 | the enhanced score is at most 10 when the vegetation density is absent or non-negative or a history is given, and non-negative for non-negative rainfall and soil moisture |
| RiskScoring.EnhancedRiskScoreMonotone | utils.py:258-300 | without history the enhanced score is non-decreasing in rainfall and soil moisture and symmetric in temperature about 15 |
| RiskScoring.EnhancedRiskScoreDirections | utils.py:258-300 | without history the enhanced score never falls as the temperature moves away from 15 degrees and never rises as the vegetation density grows |
| RiskScoring.NegativeDensityExample | utils.py:258-300 | saturated rain, soil and temperature with no terrain and a density of -200 score 10.5 without history: the uncapped score can exceed 10 |
| RiskScoring.EnhancedHistoryBreaksMonotonicity | utils.py:286-305 | with a history the enhanced score is not monotone in rainfall: one record gives 2.75 at 0 mm and 1.2 at 10 mm |
| Alerts.GenerateAlert | utils.py:101-140 | no alert exactly below 3; otherwise an active alert at the given coordinates with level 10 exactly from 7, level 8 exactly in [5, 7), level 5 exactly in [3, 5), and the message of that tier |
| Alerts.AlertTierMonotone | utils.py:114-125 | a higher score never gives a lower tier, and the tier does not depend on the coordinates |
| Alerts.AlertBoundaries | utils.py:114-125 | the thresholds 7, 5 and 3 are inclusive |
| Regions.RegionCoordinates | utils.py:755-774 | a known district gets its table coordinates and any other name gets (25.0, 82.0) |
| Regions.FallbackOnlyForUnknown | utils.py:764-774 | the fallback point is returned exactly for unknown names |
| Resilience.Clamp10 | utils.py:626 | the clamp lies in [0, 10] and is the identity on [0, 10] |
| Resilience.BuildingAgeFactor | utils.py:580 | the building-age factor lies in [0, 10]: 10 for new buildings, 0 from 40 years |
| Resilience.BuildingDensityFactor | utils.py:581 | the density factor lies in [0, 10] and is 0 at full cover |
| Resilience.BridgeAgeFactor | utils.py:586 | the bridge-age factor lies in [0, 10] and is 0 from 50 years |
| Resilience.BridgeCountFactor | utils.py:587 | the bridge-count factor is at most 10, and non-negative for a non-negative count |
| Resilience.RiskAdaptability | utils.py:615 | the adaptability is never negative, lies in [5, 10] for risks in [0, 10], and is 0 from risk 20 |
| Resilience.ProfileFor | utils.py:564-574 | the custom profile when given, else the table entry of the name, else the default profile |
| Resilience.DefaultProfileOnlyForUnknown | utils.py:492-574 | without custom data the profile is the default exactly for names not in the table, as no district of the table has the default profile |
| Resilience.FactorRanges | utils.py:580-616 | the building sub-factor lies in [0, 10], the transport one too for a road quality in [0, 100] and a non-negative bridge count, the maintenance bonus is 1 exactly with recent maintenance and 0 otherwise, and the adaptability is never negative and lies in [5, 10] for risks in [0, 10] |
| Resilience.InfrastructureResilience | utils.py:478-649 | the score lies in [0, 10], location and risk are echoed, the profile is the one the lookup gives, and the factors are those of that profile at the given risk; the variation bound is stated by InfrastructureResilienceContract |
| Resilience.InfrastructureResilienceContract | utils.py:490-638 | the score lies in [0, 10] and within 0.3 of the clamped deterministic score of the factors computed from the profile and the risk; the profile is the custom one, else the table entry, else the default; location and risk are echoed; the maintenance bonus is 1 exactly with recent maintenance |
| Resilience.UnknownLocationsScoreAlike | utils.py:564-574 | two unknown names get the same score and factors |
| Resilience.ResilienceNonIncreasingInRisk | utils.py:613-626 | a higher risk never raises resilience |
| Resilience.DefaultProfileExample | utils.py:564-626 | the default profile at risk 0 and no variation scores 7.1825 |
| Assessment.FindClosestSensorData | utils.py:436-456 | no reading exactly for an empty list, otherwise the last reading |
| Assessment.ClosestIgnoresCoordinates | utils.py:449-456 | any two positions get the same reading |
| Assessment.Session.Add | utils.py:394-400 | a row joins the pending rows at the end; committed rows are unchanged |
| Assessment.Session.Commit | utils.py:427 | the pending rows are appended to the committed ones and the pending list is emptied |
| Assessment.Session.Rollback | utils.py:431-432 | the pending rows are dropped and the committed ones are unchanged |
| Assessment.ActiveLocations | utils.py:350 | the active locations are exactly the stored locations with the active flag |
| Assessment.EventHistory | utils.py:360-361 | the event dictionaries are one per event, in event order, and every one lacks all three weather keys |
| Assessment.RowsFor | utils.py:384-400 | an assessed location queues its assessment row first, and a second row exactly when the score is at least 5: the alert `GenerateAlert` gives for that score at the location, which is active and HIGH or CRITICAL |
| Assessment.AssessMultipleLocations | utils.py:341-434 | with no active location nothing is queued or committed; otherwise the results are the per-location results and the session commits exactly the rows queued before plus the rows of the run, in order |
| Assessment.AssessEach | utils.py:363-424 | the loop returns the results of all locations in order and queues their rows, without committing |
| Assessment.AssessOne | utils.py:366-424 | one pass of the loop: no result and no row without a reading, otherwise the location's result and its rows |
| Assessment.NoReadingNoResults | utils.py:365-371 | with no reading no location gets a result |
| Assessment.EveryLocationAssessed | utils.py:363-424 | with a reading every location gets exactly one result, in order, scored on the same latest reading |
| Assessment.OneAssessmentPerLocation | utils.py:383-394 | the assessment rows of a run carry the location ids in location order, one per location, when there is a reading, and none otherwise |
| Assessment.AlertRowsOfLocation | utils.py:396-400 | an alert queued for a location is HIGH or CRITICAL, active, and at that location |
| Assessment.AlertsAreHighOrCritical | utils.py:396-400 | a run queues only HIGH or CRITICAL alerts, each active and at some assessed location |
| Assessment.RunIgnoresHistory | utils.py:359-381 | in a run built from landslide events every result has historical factor 0 |
| Assessment.RunResilienceWithinVariation | utils.py:402-406 | in a run each resilience result uses the location's table or default profile, and the factors of that profile at the location's risk score, and its score is within 0.3 of the clamped deterministic score of those factors |
| Grouping.FindLocation | utils.py:802 | the lookup finds a location with the id exactly when one exists |
| Grouping.HeaderFor | utils.py:801-806 | a group is headed by the stored location of its id, or by the Unknown placeholder exactly when none exists |
| Grouping.LocationIds | utils.py:798-799 | the ids of the assessments, one per assessment, in order |
| Grouping.FirstAppearances | utils.py:801-806 | the dictionary keys are the ids that occur, each exactly once |
| Grouping.OfLocationMembers | utils.py:808 | a group holds exactly the assessments carrying its id |
| Grouping.GroupRecentAssessments | utils.py:796-810 | the loop that fills the dictionary returns one group per id in order of first appearance, each headed by its location and holding that id's assessments in input order |
| Grouping.EveryAssessmentGrouped | utils.py:798-808 | every assessment lies in a group filed under its own location id |
| Grouping.GroupMembersMatch | utils.py:798-808 | a group holds only assessments of the input that carry the group's id |
| Grouping.GroupIdsDistinct | utils.py:801-806 | no two groups share an id |
| Grouping.FirstAppearancesPrefix | utils.py:801-810 | groups formed from earlier assessments come first, in the same order, whatever follows |
| Grouping.OfLocationAppend | utils.py:808 | within a group, the assessments of an earlier part of the input precede those of a later part |
| Grouping.GroupSizesSum | utils.py:798-810 | the group sizes add up to the number of assessments |

## Left out

- Rounding is left out: `round(x, 1)` and `round(x, 2)` on scores and
  factors, and `round(v, 2)` on resilience factors. All values are
  unrounded reals.
- IEEE floating-point behaviour is not modelled; arithmetic is exact.
- Assessment.AssessMultipleLocations: the source compares the score rounded
  to one decimal with 5.0 and passes the rounded score to the alert and
  resilience computations. The model uses the unrounded score, so a score
  in [4.95, 5.0) raises an alert in the source but not in the model.
- RiskScoring.EnhancedRiskScoreBounds: the bound of 10 is stated only when
  the vegetation density is absent or non-negative, or a history is given.
  A density below -20 can raise the uncapped score above 10, in the source
  as in the model (`RiskScoring.NegativeDensityExample`).
- Resilience.InfrastructureResilience: the random variation is a parameter,
  and the contract lemma asks that it lie in [-0.3, 0.3), the range the
  random draw produces.
- Resilience.ProfileFor: a custom infrastructure profile is taken as
  complete. The per-key defaults that `.get` supplies for a partial custom
  dictionary are not modelled; no caller passes one.
- Timestamps, logging, and the catch-all `except` branches are left out.
  The model has no exceptions other than the `KeyError` of a missing history
  key, and the source catches that one itself.
- Assessment.Session.Rollback: it is modelled but never called by the run,
  because no step of the model raises.
- Lower-casing is ASCII only; Unicode case mapping is not modelled.
- Location elevation, descriptions, image URLs and the other fields that are
  only copied through are not modelled.
- The database wrappers are not modelled, because they are queries and
  inserts: `get_uttar_pradesh_risk_zones`, `get_emergency_facilities`,
  `get_recent_sensor_data`, `get_active_alerts`, `get_monitored_locations`
  and `init_sample_data`. The queries' results are inputs of the model.
- `get_recent_risk_assessments` takes its time window from the clock and its
  rows from the database. The model is handed the filtered, time-ordered
  rows and the location table.
- `get_seismic_data` is not part of this model, because it generates random
  data.
- The web layer is not part of this model: `routes.py` and `app.py`.
- The sensor clients in `sensor_data.py` and the image model in
  `dl_model.py` are not part of this model, because they perform I/O or
  randomness.

=== FILE: alerts.dfy ===
/** The alert ladder: a risk score and a position give an active alert of one
    of three tiers, or no alert at all. */
module Alerts {
  import opened Entities

  const CriticalLevel: int := 10
  const HighLevel: int := 8
  const ModerateLevel: int := 5

  /** The text of each alert message. */
  function MessageText(m: AlertMessage): string
  {
    match m
    case CriticalMessage =>
      "CRITICAL ALERT: Very high landslide risk detected. Immediate evacuation recommended."
    case HighMessage =>
      "HIGH ALERT: Significant landslide risk detected. Prepare for possible evacuation."
    case ModerateMessage =>
      "MODERATE ALERT: Elevated landslide risk. Monitor conditions closely."
  }

  /** Thresholds are inclusive: at least 7 is critical, at least 5 high, at
      least 3 moderate, anything lower raises nothing. */
  function GenerateAlert(riskScore: real, lat: real, lng: real): (r: Option<Alert>)
    ensures r.None? <==> riskScore < 3.0
    ensures r.Some? ==> r.value.isActive && r.value.lat == lat && r.value.lng == lng
    ensures r.Some? ==> (r.value.riskLevel == CriticalLevel <==> riskScore >= 7.0)
    ensures r.Some? ==> (r.value.riskLevel == HighLevel <==> 5.0 <= riskScore < 7.0)
    ensures r.Some? ==> (r.value.riskLevel == ModerateLevel <==> 3.0 <= riskScore < 5.0)
    ensures r.Some? ==> r.value.riskLevel in {CriticalLevel, HighLevel, ModerateLevel}
    ensures r.Some? ==> r.value.message == (if riskScore >= 7.0 then CriticalMessage
                                            else if riskScore >= 5.0 then HighMessage else ModerateMessage)
  {
    if riskScore >= 7.0 then Some(Alert(CriticalLevel, CriticalMessage, lat, lng, true))
    else if riskScore >= 5.0 then Some(Alert(HighLevel, HighMessage, lat, lng, true))
    else if riskScore >= 3.0 then Some(Alert(ModerateLevel, ModerateMessage, lat, lng, true))
    else None
  }

  /** The tier raised for a score, 0 standing for "no alert". */
  function AlertTier(riskScore: real): int
  {
    match GenerateAlert(riskScore, 0.0, 0.0)
    case None => 0
    case Some(a) => a.riskLevel
  }

  /** A higher score never gives a lower tier, and the tier does not depend
      on the position. */
  lemma AlertTierMonotone(s1: real, s2: real, lat: real, lng: real)
    requires s1 <= s2
    ensures AlertTier(s1) <= AlertTier(s2)
    ensures GenerateAlert(s2, lat, lng).Some? ==> GenerateAlert(s2, lat, lng).value.riskLevel == AlertTier(s2)
  {
  }

  /** The boundary scores resolve with >=, not >. */
  lemma AlertBoundaries(lat: real, lng: real)
    ensures GenerateAlert(7.0, lat, lng).Some? && GenerateAlert(7.0, lat, lng).value.riskLevel == 10
    ensures GenerateAlert(6.99, lat, lng).Some? && GenerateAlert(6.99, lat, lng).value.riskLevel == 8
    ensures GenerateAlert(5.0, lat, lng).Some? && GenerateAlert(5.0, lat, lng).value.riskLevel == 8
    ensures GenerateAlert(4.99, lat, lng).Some? && GenerateAlert(4.99, lat, lng).value.riskLevel == 5
    ensures GenerateAlert(3.0, lat, lng).Some? && GenerateAlert(3.0, lat, lng).value.riskLevel == 5
    ensures GenerateAlert(2.99, lat, lng).None?
  {
  }
}

=== FILE: assessment.dfy ===
/** The assessment run over all monitored locations. The database is
    replaced by plain sequences (the query results) and a Session object that
    collects pending rows and commits them all at once. */
module Assessment {
  import opened Entities
  import opened RiskScoring
  import opened Alerts
  import opened Resilience

  // ---------------------------------------------------------------------------
  // Sensor association
  // ---------------------------------------------------------------------------

  /** The "closest" reading is simply the last one of the list (the most
      recent, the list being ordered by time); the coordinates are not used. */
  function FindClosestSensorData(lat: real, lng: real, sensors: seq<SensorReading>): (r: Option<SensorReading>)
    ensures r.None? <==> |sensors| == 0
    ensures r.Some? ==> r.value == sensors[|sensors| - 1]
  {
    if |sensors| == 0 then None else Some(sensors[|sensors| - 1])
  }

  /** Any two positions are associated with the same reading. */
  lemma ClosestIgnoresCoordinates(lat1: real, lng1: real, lat2: real, lng2: real, sensors: seq<SensorReading>)
    ensures FindClosestSensorData(lat1, lng1, sensors) == FindClosestSensorData(lat2, lng2, sensors)
  {
  }

  // ---------------------------------------------------------------------------
  // Rows and the session
  // ---------------------------------------------------------------------------

  /** A row waiting in the session to be written. */
  datatype PendingRow = AssessmentRow(assessment: RiskAssessment) | AlertRow(alert: Alert)

  /** The database session: rows added since the last commit, and the rows
      already written. Commit writes every pending row; rollback drops them. */
  class Session {
    var pending: seq<PendingRow>
    var committed: seq<PendingRow>

    constructor ()
      ensures pending == [] && committed == []
    {
      pending := [];
      committed := [];
    }

    method Add(row: PendingRow)
      modifies this
      ensures pending == old(pending) + [row]
      ensures committed == old(committed)
    {
      pending := pending + [row];
    }

    method Commit()
      modifies this
      ensures committed == old(committed) + old(pending)
      ensures pending == []
    {
      committed := committed + pending;
      pending := [];
    }

    method Rollback()
      modifies this
      ensures committed == old(committed)
      ensures pending == []
    {
      pending := [];
    }
  }

  // ---------------------------------------------------------------------------
  // Specification of one run
  // ---------------------------------------------------------------------------

  /** The active locations, in stored order. */
  function ActiveLocations(all: seq<MonitoredLocation>): (r: seq<MonitoredLocation>)
    ensures |r| <= |all|
    ensures forall l :: l in r <==> l in all && l.isActive
    decreases |all|
  {
    if |all| == 0 then []
    else
      var n := |all| - 1;
      var prefix := ActiveLocations(all[..n]);
      assert forall l :: l in all <==> l in all[..n] || l == all[n];
      if all[n].isActive then prefix + [all[n]] else prefix
  }

  /** Dictionary form of a landslide event as the scorers see it: none of the
      rainfall, temperature and soil-moisture keys is present. */
  function EventHistory(events: seq<LandslideEvent>): (h: seq<HistoryRecord>)
    ensures |h| == |events|
    ensures forall i :: 0 <= i < |h| ==> h[i] == HistoryRecord(None, None, None)
  {
    if |events| == 0 then [] else [HistoryRecord(None, None, None)] + EventHistory(events[1..])
  }

  predicate JittersInRange(jitters: seq<real>)
  {
    forall i :: 0 <= i < |jitters| ==> -0.3 <= jitters[i] < 0.3
  }

  /** The result reported for one location. */
  datatype AssessmentResult = AssessmentResult(
    location: MonitoredLocation,
    risk: RiskData,
    sensor: SensorReading,
    resilience: ResilienceData)

  function AssessLocation(loc: MonitoredLocation, s: SensorReading, history: seq<HistoryRecord>, jitter: real): AssessmentResult
  {
    var risk := EnhancedRiskScore(s.rainfall, s.temperature, s.soilMoisture, history,
                                  loc.terrainType, loc.vegetationDensity);
    AssessmentResult(loc, risk, s, InfrastructureResilience(loc.name, risk.riskScore, None, jitter))
  }

  /** The stored assessment row: score and factors, vegetation not stored. */
  function StoredAssessment(locationId: int, risk: RiskData): RiskAssessment
  {
    RiskAssessment(locationId, risk.riskScore, risk.rainfallFactor, risk.temperatureFactor,
                   risk.soilMoistureFactor, risk.historicalFactor, risk.terrainFactor)
  }

  /** Rows one assessed location adds: its assessment, then an alert when the
      score is at least 5. */
  function RowsFor(loc: MonitoredLocation, risk: RiskData): (rows: seq<PendingRow>)
    ensures |rows| == (if risk.riskScore >= 5.0 then 2 else 1)
    ensures rows[0] == AssessmentRow(StoredAssessment(loc.id, risk))
    ensures |rows| == 2 ==> rows[1].AlertRow? && rows[1].alert.isActive &&
                            rows[1].alert.lat == loc.lat && rows[1].alert.lng == loc.lng &&
                            rows[1].alert.riskLevel in {HighLevel, CriticalLevel}
    ensures |rows| == 2 ==> rows[1] == AlertRow(GenerateAlert(risk.riskScore, loc.lat, loc.lng).value)
  {
    [AssessmentRow(StoredAssessment(loc.id, risk))] +
    if risk.riskScore >= 5.0 then
      match GenerateAlert(risk.riskScore, loc.lat, loc.lng)
      case None => []
      case Some(a) => [AlertRow(a)]
    else []
  }

  /** Result of one location: none when there is no reading to use. */
  function ResultOf(loc: MonitoredLocation, sensors: seq<SensorReading>, history: seq<HistoryRecord>, jitter: real): (r: seq<AssessmentResult>)
    ensures |r| == if |sensors| > 0 then 1 else 0
  {
    match FindClosestSensorData(loc.lat, loc.lng, sensors)
    case None => []
    case Some(s) => [AssessLocation(loc, s, history, jitter)]
  }

  /** Rows one location adds: none when there is no reading to use. */
  function RowsOf(loc: MonitoredLocation, sensors: seq<SensorReading>, history: seq<HistoryRecord>): seq<PendingRow>
  {
    match FindClosestSensorData(loc.lat, loc.lng, sensors)
    case None => []
    case Some(s) =>
      RowsFor(loc, EnhancedRiskScore(s.rainfall, s.temperature, s.soilMoisture, history,
                                     loc.terrainType, loc.vegetationDensity))
  }

  /** Results of a run over `locs`, skipping locations with no reading. */
  function ResultsFor(locs: seq<MonitoredLocation>, sensors: seq<SensorReading>,
                      history: seq<HistoryRecord>, jitters: seq<real>): seq<AssessmentResult>
    requires |jitters| == |locs|
    decreases |locs|
  {
    if |locs| == 0 then []
    else
      var n := |locs| - 1;
      ResultsFor(locs[..n], sensors, history, jitters[..n]) + ResultOf(locs[n], sensors, history, jitters[n])
  }

  /** Rows a run over `locs` adds to the session, in order. */
  function RowsForAll(locs: seq<MonitoredLocation>, sensors: seq<SensorReading>,
                      history: seq<HistoryRecord>): seq<PendingRow>
    decreases |locs|
  {
    if |locs| == 0 then []
    else
      var n := |locs| - 1;
      RowsForAll(locs[..n], sensors, history) + RowsOf(locs[n], sensors, history)
  }

  // ---------------------------------------------------------------------------
  // The run
  // ---------------------------------------------------------------------------

  /** Assess every active location against the latest reading and the
      landslide events, queueing one assessment per assessed location and an
      alert for scores of at least 5, then commit. With no active location it
      returns at once and commits nothing. */
  method AssessMultipleLocations(session: Session, allLocations: seq<MonitoredLocation>,
                                 recentSensors: seq<SensorReading>, events: seq<LandslideEvent>,
                                 jitters: seq<real>)
    returns (results: seq<AssessmentResult>)
    requires |jitters| == |ActiveLocations(allLocations)|
    modifies session
    ensures results == ResultsFor(ActiveLocations(allLocations), recentSensors, EventHistory(events), jitters)
    ensures |ActiveLocations(allLocations)| == 0 ==>
              session.pending == old(session.pending) && session.committed == old(session.committed)
    ensures |ActiveLocations(allLocations)| > 0 ==>
              session.pending == [] &&
              session.committed == old(session.committed) +
                                   (old(session.pending) +
                                    RowsForAll(ActiveLocations(allLocations), recentSensors, EventHistory(events)))
  {
    var locations := ActiveLocations(allLocations);
    if |locations| == 0 {
      return [];
    }
    var history := EventHistory(events);
    results := AssessEach(session, locations, recentSensors, history, jitters);
    session.Commit();
  }

  /** The loop over the active locations, queueing rows without committing. */
  method AssessEach(session: Session, locations: seq<MonitoredLocation>, sensors: seq<SensorReading>,
                    history: seq<HistoryRecord>, jitters: seq<real>)
    returns (results: seq<AssessmentResult>)
    requires |jitters| == |locations|
    modifies session
    ensures results == ResultsFor(locations, sensors, history, jitters)
    ensures session.pending == old(session.pending) + RowsForAll(locations, sensors, history)
    ensures session.committed == old(session.committed)
  {
    results := [];
    var i := 0;
    while i < |locations|
      invariant 0 <= i <= |locations|
      invariant results == ResultsFor(locations[..i], sensors, history, jitters[..i])
      invariant session.pending == old(session.pending) + RowsForAll(locations[..i], sensors, history)
      invariant session.committed == old(session.committed)
    {
      ExtendRun(locations, sensors, history, jitters, i);
      var r := AssessOne(session, locations[i], sensors, history, jitters[i]);
      results := results + r;
      i := i + 1;
    }
    assert locations[..i] == locations;
    assert jitters[..i] == jitters;
  }

  /** The run over one more location extends the results and the rows by that
      location's own. */
  lemma ExtendRun(locs: seq<MonitoredLocation>, sensors: seq<SensorReading>, history: seq<HistoryRecord>,
                  jitters: seq<real>, i: nat)
    requires |jitters| == |locs| && i < |locs|
    ensures ResultsFor(locs[..i + 1], sensors, history, jitters[..i + 1])
         == ResultsFor(locs[..i], sensors, history, jitters[..i]) + ResultOf(locs[i], sensors, history, jitters[i])
    ensures RowsForAll(locs[..i + 1], sensors, history)
         == RowsForAll(locs[..i], sensors, history) + RowsOf(locs[i], sensors, history)
  {
    assert locs[..i + 1][..i] == locs[..i];
    assert jitters[..i + 1][..i] == jitters[..i];
  }

  /** One pass of the loop: find the reading, score, queue the assessment and
      possibly an alert, score resilience. */
  method AssessOne(session: Session, location: MonitoredLocation, sensors: seq<SensorReading>,
                   history: seq<HistoryRecord>, jitter: real)
    returns (result: seq<AssessmentResult>)
    modifies session
    ensures result == ResultOf(location, sensors, history, jitter)
    ensures session.pending == old(session.pending) + RowsOf(location, sensors, history)
    ensures session.committed == old(session.committed)
  {
    var closest := FindClosestSensorData(location.lat, location.lng, sensors);
    if closest.None? {
      return [];
    }
    var sensor := closest.value;
    var risk := EnhancedRiskScore(sensor.rainfall, sensor.temperature, sensor.soilMoisture, history,
                                  location.terrainType, location.vegetationDensity);
    session.Add(AssessmentRow(StoredAssessment(location.id, risk)));
    if risk.riskScore >= 5.0 {
      var alert := GenerateAlert(risk.riskScore, location.lat, location.lng);
      if alert.Some? {
        session.Add(AlertRow(alert.value));
      }
    }
    var resilience := InfrastructureResilience(location.name, risk.riskScore, None, jitter);
    result := [AssessmentResult(location, risk, sensor, resilience)];
  }

  // ---------------------------------------------------------------------------
  // Properties of a run
  // ---------------------------------------------------------------------------

  /** With no reading no location is assessed. */
  lemma {:induction false} NoReadingNoResults(locs: seq<MonitoredLocation>, sensors: seq<SensorReading>,
                                              history: seq<HistoryRecord>, jitters: seq<real>)
    requires |jitters| == |locs| && |sensors| == 0
    ensures ResultsFor(locs, sensors, history, jitters) == []
    decreases |locs|
  {
    if |locs| > 0 {
      var n := |locs| - 1;
      NoReadingNoResults(locs[..n], sensors, history, jitters[..n]);
    }
  }

  /** With a reading every location gets exactly one result. */
  lemma {:induction false} ResultsForLength(locs: seq<MonitoredLocation>, sensors: seq<SensorReading>,
                                            history: seq<HistoryRecord>, jitters: seq<real>)
    requires |jitters| == |locs| && |sensors| > 0
    ensures |ResultsFor(locs, sensors, history, jitters)| == |locs|
    decreases |locs|
  {
    if |locs| > 0 {
      var n := |locs| - 1;
      ResultsForLength(locs[..n], sensors, history, jitters[..n]);
    }
  }

  /** With a reading the result at position i is that of the i-th location. */
  lemma {:induction false} ResultAt(locs: seq<MonitoredLocation>, sensors: seq<SensorReading>,
                                    history: seq<HistoryRecord>, jitters: seq<real>, i: nat)
    requires |jitters| == |locs| && |sensors| > 0 && i < |locs|
    ensures |ResultsFor(locs, sensors, history, jitters)| == |locs|
    ensures ResultsFor(locs, sensors, history, jitters)[i]
            == AssessLocation(locs[i], sensors[|sensors| - 1], history, jitters[i])
    decreases |locs|
  {
    var n := |locs| - 1;
    ResultsForLength(locs, sensors, history, jitters);
    ResultsForLength(locs[..n], sensors, history, jitters[..n]);
    if i < n {
      ResultAt(locs[..n], sensors, history, jitters[..n], i);
      assert locs[..n][i] == locs[i] && jitters[..n][i] == jitters[i];
    }
  }

  /** With a reading every location is assessed, in order, against the same
      latest reading. */
  lemma EveryLocationAssessed(locs: seq<MonitoredLocation>, sensors: seq<SensorReading>,
                              history: seq<HistoryRecord>, jitters: seq<real>)
    requires |jitters| == |locs| && |sensors| > 0
    ensures var results := ResultsFor(locs, sensors, history, jitters);
      |results| == |locs| &&
      forall i :: 0 <= i < |locs| ==>
        results[i] == AssessLocation(locs[i], sensors[|sensors| - 1], history, jitters[i])
  {
    ResultsForLength(locs, sensors, history, jitters);
    forall i | 0 <= i < |locs|
      ensures ResultsFor(locs, sensors, history, jitters)[i]
              == AssessLocation(locs[i], sensors[|sensors| - 1], history, jitters[i])
    {
      ResultAt(locs, sensors, history, jitters, i);
    }
  }

  /** Location ids of the assessment rows, in order. */
  function AssessedIds(rows: seq<PendingRow>): seq<int>
    decreases |rows|
  {
    if |rows| == 0 then []
    else
      var n := |rows| - 1;
      AssessedIds(rows[..n]) + if rows[n].AssessmentRow? then [rows[n].assessment.locationId] else []
  }

  lemma {:induction false} AssessedIdsAppend(a: seq<PendingRow>, b: seq<PendingRow>)
    ensures AssessedIds(a + b) == AssessedIds(a) + AssessedIds(b)
    decreases |b|
  {
    if |b| > 0 {
      var n := |b| - 1;
      assert (a + b)[..|a| + n] == a + b[..n];
      AssessedIdsAppend(a, b[..n]);
    } else {
      assert a + b == a;
    }
  }

  function Ids(locs: seq<MonitoredLocation>): (ids: seq<int>)
    ensures |ids| == |locs| && forall i :: 0 <= i < |locs| ==> ids[i] == locs[i].id
    decreases |locs|
  {
    if |locs| == 0 then [] else Ids(locs[..|locs| - 1]) + [locs[|locs| - 1].id]
  }

  /** One location queues exactly one assessment row, carrying its id, when
      there is a reading, and nothing otherwise. */
  lemma RowsOfOneAssessment(loc: MonitoredLocation, sensors: seq<SensorReading>, history: seq<HistoryRecord>)
    ensures AssessedIds(RowsOf(loc, sensors, history)) == if |sensors| > 0 then [loc.id] else []
  {
    var rows := RowsOf(loc, sensors, history);
    if |sensors| > 0 {
      assert rows[0].AssessmentRow? && rows[0].assessment.locationId == loc.id;
      assert rows[..1][..0] == [];
      AssessedIdsAppend(rows[..1], rows[1..]);
      assert rows == rows[..1] + rows[1..];
      if |rows| > 1 {
        assert rows[1..] == [rows[1]] && rows[1].AlertRow?;
        assert rows[1..][..0] == [];
      }
    }
  }

  /** With a reading, the run queues exactly one assessment per location, in
      location order; without one it queues none. */
  lemma {:induction false} OneAssessmentPerLocation(locs: seq<MonitoredLocation>, sensors: seq<SensorReading>,
                                                    history: seq<HistoryRecord>)
    ensures AssessedIds(RowsForAll(locs, sensors, history)) == if |sensors| > 0 then Ids(locs) else []
    decreases |locs|
  {
    if |locs| > 0 {
      var n := |locs| - 1;
      OneAssessmentPerLocation(locs[..n], sensors, history);
      AssessedIdsAppend(RowsForAll(locs[..n], sensors, history), RowsOf(locs[n], sensors, history));
      RowsOfOneAssessment(locs[n], sensors, history);
    }
  }

  /** The alert a location may queue is HIGH or CRITICAL, active, and at
      that location. */
  lemma AlertRowsOfLocation(loc: MonitoredLocation, sensors: seq<SensorReading>, history: seq<HistoryRecord>)
    ensures forall row :: row in RowsOf(loc, sensors, history) && row.AlertRow? ==>
              row.alert.riskLevel in {HighLevel, CriticalLevel} && row.alert.isActive &&
              row.alert.lat == loc.lat && row.alert.lng == loc.lng
  {
  }

  /** The run raises only HIGH and CRITICAL alerts, each active and at the
      location it was raised for: MODERATE alerts never come from it. */
  lemma {:induction false} AlertsAreHighOrCritical(locs: seq<MonitoredLocation>, sensors: seq<SensorReading>,
                                                   history: seq<HistoryRecord>)
    ensures forall row :: row in RowsForAll(locs, sensors, history) && row.AlertRow? ==>
              row.alert.riskLevel in {HighLevel, CriticalLevel} && row.alert.isActive &&
              exists l :: l in locs && row.alert.lat == l.lat && row.alert.lng == l.lng
    decreases |locs|
  {
    if |locs| > 0 {
      var n := |locs| - 1;
      var prev := RowsForAll(locs[..n], sensors, history);
      var last := RowsOf(locs[n], sensors, history);
      AlertsAreHighOrCritical(locs[..n], sensors, history);
      AlertRowsOfLocation(locs[n], sensors, history);
      forall row: PendingRow | row in prev + last && row.AlertRow?
        ensures row.alert.riskLevel in {HighLevel, CriticalLevel} && row.alert.isActive &&
                exists l :: l in locs && row.alert.lat == l.lat && row.alert.lng == l.lng
      {
        if row in prev {
          var l :| l in locs[..n] && row.alert.lat == l.lat && row.alert.lng == l.lng;
          assert l in locs;
        } else {
          assert locs[n] in locs;
        }
      }
    }
  }

  /** Landslide events carry none of the keys the similarity test reads, so
      in a run the historical factor is always 0. */
  lemma RunIgnoresHistory(locs: seq<MonitoredLocation>, sensors: seq<SensorReading>,
                          events: seq<LandslideEvent>, jitters: seq<real>)
    requires |jitters| == |locs|
    ensures var results := ResultsFor(locs, sensors, EventHistory(events), jitters);
      forall i :: 0 <= i < |results| ==> results[i].risk.historicalFactor == 0.0
  {
    var history := EventHistory(events);
    if |sensors| == 0 {
      NoReadingNoResults(locs, sensors, history, jitters);
    } else {
      EveryLocationAssessed(locs, sensors, history, jitters);
      var s := sensors[|sensors| - 1];
      if |events| > 0 {
        MissingKeyMasksHistory(history, 0, s.rainfall, s.temperature, s.soilMoisture);
      }
      forall i | 0 <= i < |locs|
        ensures AssessLocation(locs[i], s, history, jitters[i]).risk.historicalFactor == 0.0
      {
        EnhancedRiskScoreFactors(s.rainfall, s.temperature, s.soilMoisture, history,
                                 locs[i].terrainType, locs[i].vegetationDensity);
      }
    }
  }

  /** With the variation drawn from [-0.3, 0.3), every resilience score of a
      run is within 0.3 of the clamped deterministic score of its location,
      computed on the location's table profile (or the default one). */
  lemma RunResilienceWithinVariation(locs: seq<MonitoredLocation>, sensors: seq<SensorReading>,
                                     history: seq<HistoryRecord>, jitters: seq<real>)
    requires |jitters| == |locs| && JittersInRange(jitters)
    ensures var results := ResultsFor(locs, sensors, history, jitters);
      forall i :: 0 <= i < |results| ==>
        results[i].resilience.infrastructure == ProfileFor(results[i].location.name, None) &&
        results[i].resilience.riskScore == results[i].risk.riskScore &&
        results[i].resilience.factors == Factors(ProfileFor(results[i].location.name, None), results[i].risk.riskScore) &&
        -0.3 <= results[i].resilience.resilienceScore - Clamp10(UnjitteredScore(results[i].resilience.factors)) <= 0.3
  {
    if |sensors| == 0 {
      NoReadingNoResults(locs, sensors, history, jitters);
    } else {
      EveryLocationAssessed(locs, sensors, history, jitters);
      var s := sensors[|sensors| - 1];
      forall i | 0 <= i < |locs|
        ensures var r := AssessLocation(locs[i], s, history, jitters[i]);
          r.resilience.infrastructure == ProfileFor(locs[i].name, None) &&
          -0.3 <= r.resilience.resilienceScore - Clamp10(UnjitteredScore(r.resilience.factors)) <= 0.3
      {
        var risk := EnhancedRiskScore(s.rainfall, s.temperature, s.soilMoisture, history,
                                      locs[i].terrainType, locs[i].vegetationDensity);
        InfrastructureResilienceContract(locs[i].name, risk.riskScore, None, jitters[i]);
      }
    }
  }
}

=== FILE: entities.dfy ===
/** Entity shapes of the landslide-monitoring store, as values.
    The ORM rows become plain datatypes; identifiers, coordinates and
    measurements are kept, timestamps and free-text descriptions are not. */
module Entities {

  datatype Option<+T> = None | Some(value: T)

  /** One sensor reading (rainfall in mm, temperature in degrees Celsius,
      soil moisture in percent) and where it was taken. */
  datatype SensorReading = SensorReading(
    rainfall: real,
    temperature: real,
    soilMoisture: real,
    lat: real,
    lng: real)

  /** One entry of the historical list handed to the scorers: a dictionary
      in which each of the three keys the similarity test reads may be absent. */
  datatype HistoryRecord = HistoryRecord(
    rainfall: Option<real>,
    temperature: Option<real>,
    soilMoisture: Option<real>)

  /** A recorded landslide; its dictionary form carries location and
      severity but none of the three weather keys. */
  datatype LandslideEvent = LandslideEvent(id: int, lat: real, lng: real, severity: int)

  /** A named point under monitoring, with the optional terrain description
      and vegetation density (percent) that the enhanced scorer reads. */
  datatype MonitoredLocation = MonitoredLocation(
    id: int,
    name: string,
    lat: real,
    lng: real,
    terrainType: Option<string>,
    vegetationDensity: Option<real>,
    isActive: bool)

  /** A stored risk assessment: the score and the per-factor contributions. */
  datatype RiskAssessment = RiskAssessment(
    locationId: int,
    riskScore: real,
    rainfallFactor: real,
    temperatureFactor: real,
    soilMoistureFactor: real,
    historicalFactor: real,
    terrainFactor: real)

  /** Which of the three fixed alert messages an alert carries; the text of
      each is given by Alerts.MessageText. */
  datatype AlertMessage = CriticalMessage | HighMessage | ModerateMessage

  /** An alert row: tier (1-10), message, coordinates and the active flag. */
  datatype Alert = Alert(riskLevel: int, message: AlertMessage, lat: real, lng: real, isActive: bool)
}

=== FILE: grouping.dfy ===
/** Grouping of the recent risk assessments by location. The time-filtered,
    time-ordered query result is the input sequence `recent`; the location
    table is the sequence `locations`. The dictionary keyed by location id
    keeps its keys in insertion order, which the model makes explicit as a
    map together with the sequence of keys in the order they were added. */
module Grouping {
  import opened Entities

  /** The location part of a group: the stored location when the id is
      known, else the placeholder {'id': id, 'name': 'Unknown'}. */
  datatype LocationHeader = Known(location: MonitoredLocation) | Unknown(id: int)

  datatype LocationGroup = LocationGroup(header: LocationHeader, assessments: seq<RiskAssessment>)

  /** The id a group is filed under. */
  function GroupId(g: LocationGroup): int
  {
    match g.header
    case Known(l) => l.id
    case Unknown(id) => id
  }

  /** Primary-key lookup of a location. */
  function FindLocation(locations: seq<MonitoredLocation>, id: int): (r: Option<MonitoredLocation>)
    ensures r.Some? ==> r.value in locations && r.value.id == id
    ensures r.None? <==> forall l :: l in locations ==> l.id != id
  {
    if |locations| == 0 then None
    else if locations[0].id == id then Some(locations[0])
    else FindLocation(locations[1..], id)
  }

  /** The header a new group gets. */
  function HeaderFor(locations: seq<MonitoredLocation>, id: int): (h: LocationHeader)
    ensures h.Known? ==> h.location in locations && h.location.id == id
    ensures h.Unknown? <==> forall l :: l in locations ==> l.id != id
    ensures h.Unknown? ==> h.id == id
  {
    match FindLocation(locations, id)
    case Some(l) => Known(l)
    case None => Unknown(id)
  }

  /** The location id of each assessment, in order. */
  function LocationIds(recent: seq<RiskAssessment>): (ids: seq<int>)
    ensures |ids| == |recent|
    ensures forall i :: 0 <= i < |recent| ==> ids[i] == recent[i].locationId
  {
    if |recent| == 0 then [] else LocationIds(recent[..|recent| - 1]) + [recent[|recent| - 1].locationId]
  }

  /** The distinct ids in order of first appearance: the dictionary's keys. */
  function FirstAppearances(ids: seq<int>): (keys: seq<int>)
    ensures forall k :: k in keys <==> k in ids
    ensures forall i, j :: 0 <= i < j < |keys| ==> keys[i] != keys[j]
  {
    if |ids| == 0 then []
    else
      var n := |ids| - 1;
      var prev := FirstAppearances(ids[..n]);
      assert forall k :: k in ids <==> k in ids[..n] || k == ids[n];
      if ids[n] in prev then prev else prev + [ids[n]]
  }

  /** The assessments of one location, in input order. */
  function OfLocation(recent: seq<RiskAssessment>, id: int): (g: seq<RiskAssessment>)
    ensures |g| <= |recent|
  {
    if |recent| == 0 then []
    else
      var n := |recent| - 1;
      OfLocation(recent[..n], id) + if recent[n].locationId == id then [recent[n]] else []
  }

  /** A group holds exactly the assessments of its id. */
  lemma {:induction false} OfLocationMembers(recent: seq<RiskAssessment>, id: int)
    ensures forall a :: a in OfLocation(recent, id) <==> a in recent && a.locationId == id
    decreases |recent|
  {
    if |recent| > 0 {
      var n := |recent| - 1;
      OfLocationMembers(recent[..n], id);
      assert recent == recent[..n] + [recent[n]];
    }
  }

  /** One group per key, in key order. */
  function GroupsFor(keys: seq<int>, recent: seq<RiskAssessment>, locations: seq<MonitoredLocation>): (gs: seq<LocationGroup>)
    ensures |gs| == |keys|
    ensures forall i :: 0 <= i < |keys| ==>
              gs[i] == LocationGroup(HeaderFor(locations, keys[i]), OfLocation(recent, keys[i]))
  {
    if |keys| == 0 then []
    else
      var n := |keys| - 1;
      GroupsFor(keys[..n], recent, locations) +
      [LocationGroup(HeaderFor(locations, keys[n]), OfLocation(recent, keys[n]))]
  }

  /** The grouping the function returns. */
  function Grouped(recent: seq<RiskAssessment>, locations: seq<MonitoredLocation>): seq<LocationGroup>
  {
    GroupsFor(FirstAppearances(LocationIds(recent)), recent, locations)
  }

  /** The dictionary and its key order after the assessments `seen`: keys in
      order of first appearance, and under each key its header and the
      assessments of that id seen so far. */
  ghost predicate Tracks(byLocation: map<int, LocationGroup>, order: seq<int>, seen: seq<RiskAssessment>,
                   locations: seq<MonitoredLocation>)
  {
    order == FirstAppearances(LocationIds(seen)) &&
    (forall k :: k in byLocation <==> k in order) &&
    forall k :: k in byLocation ==> byLocation[k] == LocationGroup(HeaderFor(locations, k), OfLocation(seen, k))
  }

  /** The grouping loop: the dictionary gets a new entry, headed by the
      stored location or the placeholder, the first time an id is seen, and
      every assessment is appended to the entry of its id; the entries are
      returned in insertion order. */
  method GroupRecentAssessments(recent: seq<RiskAssessment>, locations: seq<MonitoredLocation>)
    returns (groups: seq<LocationGroup>)
    ensures groups == Grouped(recent, locations)
  {
    var byLocation: map<int, LocationGroup> := map[];
    var order: seq<int> := [];
    var i := 0;
    while i < |recent|
      invariant 0 <= i <= |recent|
      invariant Tracks(byLocation, order, recent[..i], locations)
    {
      var a := recent[i];
      var id := a.locationId;
      ghost var before := byLocation;
      ghost var orderBefore := order;
      if id !in byLocation {
        var header := match FindLocation(locations, id)
                      case Some(l) => Known(l)
                      case None => Unknown(id);
        assert header == HeaderFor(locations, id);
        byLocation := byLocation[id := LocationGroup(header, [])];
        order := order + [id];
      }
      ghost var entry := byLocation[id];
      byLocation := byLocation[id := byLocation[id].(assessments := byLocation[id].assessments + [a])];
      if id !in before {
        assert entry.assessments + [a] == [a];
        assert byLocation == before[id := LocationGroup(HeaderFor(locations, id), [a])];
      }
      TracksStep(before, orderBefore, byLocation, order, recent, i, locations);
      i := i + 1;
    }
    assert recent[..i] == recent;
    groups := [];
    var j := 0;
    while j < |order|
      invariant 0 <= j <= |order|
      invariant groups == GroupsFor(order[..j], recent, locations)
    {
      assert order[..j + 1][..j] == order[..j];
      assert order[j] in order;
      groups := groups + [byLocation[order[j]]];
      j := j + 1;
    }
    assert order[..j] == order;
  }

  /** One pass of the grouping loop keeps the dictionary in step with the
      assessments seen. */
  lemma TracksStep(byLocation: map<int, LocationGroup>, order: seq<int>,
                   byLocation': map<int, LocationGroup>, order': seq<int>,
                   recent: seq<RiskAssessment>, i: nat, locations: seq<MonitoredLocation>)
    requires i < |recent| && Tracks(byLocation, order, recent[..i], locations)
    requires var id := recent[i].locationId;
      (id in byLocation ==>
         order' == order &&
         byLocation' == byLocation[id := byLocation[id].(assessments := byLocation[id].assessments + [recent[i]])]) &&
      (id !in byLocation ==>
         order' == order + [id] &&
         byLocation' == byLocation[id := LocationGroup(HeaderFor(locations, id), [recent[i]])])
    ensures Tracks(byLocation', order', recent[..i + 1], locations)
  {
    GroupStep(recent, i);
  }

  /** What one more assessment changes: its id joins the id list, and only
      the group of its id grows, by that assessment; a new id had no
      assessments before. */
  lemma GroupStep(recent: seq<RiskAssessment>, i: nat)
    requires i < |recent|
    ensures LocationIds(recent[..i + 1]) == LocationIds(recent[..i]) + [recent[i].locationId]
    ensures forall k :: OfLocation(recent[..i + 1], k) ==
              OfLocation(recent[..i], k) + if recent[i].locationId == k then [recent[i]] else []
    ensures recent[i].locationId !in FirstAppearances(LocationIds(recent[..i])) ==>
              OfLocation(recent[..i], recent[i].locationId) == []
  {
    assert recent[..i + 1][..i] == recent[..i];
    var id := recent[i].locationId;
    var g := OfLocation(recent[..i], id);
    if g != [] {
      OfLocationMembers(recent[..i], id);
      assert g[0] in g;
      var k :| 0 <= k < i && recent[..i][k] == g[0];
      assert LocationIds(recent[..i])[k] == id;
    }
  }

  // ---------------------------------------------------------------------------
  // Properties of the grouping
  // ---------------------------------------------------------------------------

  /** Every assessment lies in the group filed under its own location id. */
  lemma EveryAssessmentGrouped(recent: seq<RiskAssessment>, locations: seq<MonitoredLocation>)
    ensures var gs := Grouped(recent, locations);
      forall i :: 0 <= i < |recent| ==>
        exists j :: 0 <= j < |gs| && GroupId(gs[j]) == recent[i].locationId && recent[i] in gs[j].assessments
  {
    var ids := LocationIds(recent);
    var keys := FirstAppearances(ids);
    var gs := Grouped(recent, locations);
    forall i | 0 <= i < |recent|
      ensures exists j :: 0 <= j < |gs| && GroupId(gs[j]) == recent[i].locationId && recent[i] in gs[j].assessments
    {
      assert ids[i] == recent[i].locationId && ids[i] in ids;
      var j :| 0 <= j < |keys| && keys[j] == ids[i];
      assert GroupId(gs[j]) == keys[j];
      OfLocationMembers(recent, keys[j]);
      assert recent[i] in recent;
    }
  }

  /** A group holds only assessments of the input that carry the group's id. */
  lemma GroupMembersMatch(recent: seq<RiskAssessment>, locations: seq<MonitoredLocation>)
    ensures var gs := Grouped(recent, locations);
      forall j, a :: 0 <= j < |gs| && a in gs[j].assessments ==> a in recent && a.locationId == GroupId(gs[j])
  {
    var keys := FirstAppearances(LocationIds(recent));
    var gs := Grouped(recent, locations);
    forall j, a | 0 <= j < |gs| && a in gs[j].assessments
      ensures a in recent && a.locationId == GroupId(gs[j])
    {
      OfLocationMembers(recent, keys[j]);
      assert GroupId(gs[j]) == keys[j];
    }
  }

  /** No two groups share an id; with the two lemmas above, each assessment
      belongs to exactly one group. */
  lemma GroupIdsDistinct(recent: seq<RiskAssessment>, locations: seq<MonitoredLocation>)
    ensures var gs := Grouped(recent, locations);
      forall j1, j2 :: 0 <= j1 < j2 < |gs| ==> GroupId(gs[j1]) != GroupId(gs[j2])
  {
    var keys := FirstAppearances(LocationIds(recent));
    var gs := Grouped(recent, locations);
    forall j1, j2 | 0 <= j1 < j2 < |gs|
      ensures GroupId(gs[j1]) != GroupId(gs[j2])
    {
      assert GroupId(gs[j1]) == keys[j1] && GroupId(gs[j2]) == keys[j2];
    }
  }

  /** The groups appear in order of first appearance: the groups formed from
      an earlier part of the input come first, in the same order, when more
      assessments follow. */
  lemma {:induction false} FirstAppearancesPrefix(a: seq<int>, b: seq<int>)
    ensures FirstAppearances(a) <= FirstAppearances(a + b)
    decreases |b|
  {
    if |b| == 0 {
      assert a + b == a;
    } else {
      var n := |b| - 1;
      FirstAppearancesPrefix(a, b[..n]);
      assert (a + b)[..|a| + n] == a + b[..n];
    }
  }

  /** Within a group the input order is kept: the assessments of an earlier
      part of the input precede those of a later part. */
  lemma {:induction false} OfLocationAppend(a: seq<RiskAssessment>, b: seq<RiskAssessment>, id: int)
    ensures OfLocation(a + b, id) == OfLocation(a, id) + OfLocation(b, id)
    decreases |b|
  {
    if |b| == 0 {
      assert a + b == a;
    } else {
      var n := |b| - 1;
      var ab := a + b;
      var tail := if b[n].locationId == id then [b[n]] else [];
      OfLocationAppend(a, b[..n], id);
      assert ab[..|ab| - 1] == a + b[..n] && ab[|ab| - 1] == b[n];
      assert OfLocation(ab, id) == OfLocation(a + b[..n], id) + tail;
      assert OfLocation(b, id) == OfLocation(b[..n], id) + tail;
    }
  }

  /** Total number of assessments held by some groups. */
  function TotalSize(gs: seq<LocationGroup>): nat
  {
    if |gs| == 0 then 0 else TotalSize(gs[..|gs| - 1]) + |gs[|gs| - 1].assessments|
  }

  /** How often k occurs in keys. */
  function Occurrences(keys: seq<int>, k: int): nat
  {
    if |keys| == 0 then 0 else Occurrences(keys[..|keys| - 1], k) + if keys[|keys| - 1] == k then 1 else 0
  }

  lemma {:induction false} OccursOnce(keys: seq<int>, k: int)
    requires forall i, j :: 0 <= i < j < |keys| ==> keys[i] != keys[j]
    ensures Occurrences(keys, k) == if k in keys then 1 else 0
    decreases |keys|
  {
    if |keys| > 0 {
      var n := |keys| - 1;
      OccursOnce(keys[..n], k);
      assert forall x :: x in keys <==> x in keys[..n] || x == keys[n];
      if keys[n] == k {
        assert k !in keys[..n];
      }
    }
  }

  /** Appending one assessment adds it to as many groups as its id has keys. */
  lemma {:induction false} TotalSizeStep(keys: seq<int>, before: seq<RiskAssessment>, a: RiskAssessment,
                                         locations: seq<MonitoredLocation>)
    ensures TotalSize(GroupsFor(keys, before + [a], locations))
         == TotalSize(GroupsFor(keys, before, locations)) + Occurrences(keys, a.locationId)
    decreases |keys|
  {
    if |keys| > 0 {
      var n := |keys| - 1;
      TotalSizeStep(keys[..n], before, a, locations);
      assert (before + [a])[..|before|] == before;
      var gsA := GroupsFor(keys, before + [a], locations);
      var gsB := GroupsFor(keys, before, locations);
      assert gsA[..n] == GroupsFor(keys[..n], before + [a], locations);
      assert gsB[..n] == GroupsFor(keys[..n], before, locations);
    }
  }

  /** Keys that cover every id and are distinct hold each assessment once. */
  lemma {:induction false} CoveringKeysHoldAll(keys: seq<int>, recent: seq<RiskAssessment>,
                                               locations: seq<MonitoredLocation>)
    requires forall i, j :: 0 <= i < j < |keys| ==> keys[i] != keys[j]
    requires forall a :: a in recent ==> a.locationId in keys
    ensures TotalSize(GroupsFor(keys, recent, locations)) == |recent|
    decreases |recent|
  {
    if |recent| == 0 {
      var gs := GroupsFor(keys, recent, locations);
      EmptyGroups(gs);
    } else {
      var n := |recent| - 1;
      var a := recent[n];
      assert recent == recent[..n] + [a];
      CoveringKeysHoldAll(keys, recent[..n], locations);
      TotalSizeStep(keys, recent[..n], a, locations);
      OccursOnce(keys, a.locationId);
    }
  }

  lemma {:induction false} EmptyGroups(gs: seq<LocationGroup>)
    requires forall i :: 0 <= i < |gs| ==> gs[i].assessments == []
    ensures TotalSize(gs) == 0
    decreases |gs|
  {
    if |gs| > 0 {
      EmptyGroups(gs[..|gs| - 1]);
    }
  }

  /** The group sizes add up to the number of assessments: nothing is lost
      and nothing is counted twice. */
  lemma GroupSizesSum(recent: seq<RiskAssessment>, locations: seq<MonitoredLocation>)
    ensures TotalSize(Grouped(recent, locations)) == |recent|
  {
    var ids := LocationIds(recent);
    forall a | a in recent
      ensures a.locationId in FirstAppearances(ids)
    {
      var i :| 0 <= i < |recent| && recent[i] == a;
      assert ids[i] == a.locationId;
    }
    CoveringKeysHoldAll(FirstAppearances(ids), recent, locations);
  }
}

=== FILE: regions.dfy ===
/** Static coordinates of the named districts, with a fallback point. */
module Regions {

  datatype Coordinates = Coordinates(lat: real, lng: real)

  const DefaultCoordinates: Coordinates := Coordinates(25.0, 82.0)

  const RegionTable: map<string, Coordinates> := map[
    "Mirzapur" := Coordinates(25.1464, 82.5697),
    "Sonbhadra" := Coordinates(24.6772, 83.0593),
    "Chandauli" := Coordinates(25.2571, 83.2760),
    "Varanasi" := Coordinates(25.3176, 82.9739),
    "Chitrakoot" := Coordinates(25.2138, 80.9019),
    "Allahabad" := Coordinates(25.4358, 81.8463)
  ]

  /** The table entry for a known region, the fallback for any other name. */
  function RegionCoordinates(regionName: string): (c: Coordinates)
    ensures regionName in RegionTable ==> c == RegionTable[regionName]
    ensures regionName !in RegionTable ==> c == DefaultCoordinates
  {
    if regionName in RegionTable then RegionTable[regionName] else DefaultCoordinates
  }

  /** The fallback point is returned exactly for unknown names: no known
      region sits at the fallback coordinates. */
  lemma FallbackOnlyForUnknown(regionName: string)
    ensures RegionCoordinates(regionName) == DefaultCoordinates <==> regionName !in RegionTable
  {
    if regionName in RegionTable {
      assert RegionTable[regionName].lat != 25.0;
    }
  }
}

=== FILE: resilience.dfy ===
/** Infrastructure resilience: a location's static infrastructure profile and
    the current risk score give a 0-10 resilience score. The random variation
    of the source is the parameter `jitter`, which lies in [-0.3, 0.3). */
module Resilience {
  import opened Entities

  datatype InfrastructureProfile = InfrastructureProfile(
    buildingDensity: real,     // percent of area covered by buildings
    buildingAge: real,         // average age in years
    roadQuality: real,         // percent
    bridgeCount: real,         // number of major bridges
    bridgeAge: real,           // average bridge age in years
    drainCapacity: real,       // percent of ideal capacity
    utilityResilience: real,   // percent
    emergencyReadiness: real,  // percent
    recentMaintenance: bool)   // maintenance within the last year

  /** The moderate profile used for any location not in the table. */
  const DefaultProfile: InfrastructureProfile :=
    InfrastructureProfile(60.0, 20.0, 65.0, 4.0, 15.0, 60.0, 65.0, 70.0, false)

  const InfrastructureDatabase: map<string, InfrastructureProfile> := map[
    "Mirzapur" := InfrastructureProfile(65.0, 15.0, 72.0, 4.0, 10.0, 60.0, 68.0, 75.0, true),
    "Sonbhadra" := InfrastructureProfile(40.0, 20.0, 55.0, 2.0, 25.0, 45.0, 50.0, 60.0, false),
    "Chandauli" := InfrastructureProfile(55.0, 12.0, 78.0, 5.0, 8.0, 70.0, 65.0, 70.0, true),
    "Varanasi" := InfrastructureProfile(85.0, 35.0, 65.0, 8.0, 18.0, 50.0, 60.0, 80.0, true),
    "Chitrakoot" := InfrastructureProfile(45.0, 22.0, 60.0, 3.0, 14.0, 55.0, 58.0, 65.0, false),
    "Allahabad" := InfrastructureProfile(75.0, 25.0, 70.0, 6.0, 15.0, 65.0, 70.0, 85.0, true)
  ]

  /** The profile of a location: a custom one when given, else its table
      entry, else the default profile. */
  function ProfileFor(locationName: string, custom: Option<InfrastructureProfile>): (p: InfrastructureProfile)
    ensures custom.Some? ==> p == custom.value
    ensures custom.None? && locationName in InfrastructureDatabase ==> p == InfrastructureDatabase[locationName]
    ensures custom.None? && locationName !in InfrastructureDatabase ==> p == DefaultProfile
  {
    match custom
    case Some(p) => p
    case None =>
      if locationName in InfrastructureDatabase then InfrastructureDatabase[locationName] else DefaultProfile
  }

  /** No district of the table has the default profile, so without custom
      data the default is used exactly for names not in the table. */
  lemma DefaultProfileOnlyForUnknown(locationName: string)
    ensures ProfileFor(locationName, None) == DefaultProfile <==> locationName !in InfrastructureDatabase
  {
  }

  /** max(0, min(10, x)). */
  function Clamp10(x: real): (r: real)
    ensures 0.0 <= r <= 10.0
    ensures 0.0 <= x <= 10.0 ==> r == x
  {
    if x < 0.0 then 0.0 else if x > 10.0 then 10.0 else x
  }

  datatype ResilienceFactors = ResilienceFactors(
    buildingResilience: real,
    transportationResilience: real,
    drainageResilience: real,
    utilityResilience: real,
    emergencyReadiness: real,
    maintenanceBonus: real,
    riskAdaptability: real)

  datatype ResilienceData = ResilienceData(
    location: string,
    resilienceScore: real,
    factors: ResilienceFactors,
    riskScore: real,
    infrastructure: InfrastructureProfile)

  /** Newer buildings are more resilient: 10 when new, 0 at 40 years. */
  function BuildingAgeFactor(p: InfrastructureProfile): (r: real)
    ensures 0.0 <= r <= 10.0
    ensures p.buildingAge >= 40.0 ==> r == 0.0
    ensures p.buildingAge <= 0.0 ==> r == 10.0
  {
    Clamp10((40.0 - p.buildingAge) / 4.0)
  }

  /** Lower density is more resilient: 10 at no buildings, 0 at full cover. */
  function BuildingDensityFactor(p: InfrastructureProfile): (r: real)
    ensures 0.0 <= r <= 10.0
    ensures p.buildingDensity >= 100.0 ==> r == 0.0
  {
    Clamp10((100.0 - p.buildingDensity) / 10.0)
  }

  /** Newer bridges are more resilient: 0 at 50 years. */
  function BridgeAgeFactor(p: InfrastructureProfile): (r: real)
    ensures 0.0 <= r <= 10.0
    ensures p.bridgeAge >= 50.0 ==> r == 0.0
  {
    Clamp10((50.0 - p.bridgeAge) / 5.0)
  }

  /** 1.5 points per bridge, capped at 10 (not clamped from below). */
  function BridgeCountFactor(p: InfrastructureProfile): (r: real)
    ensures r <= 10.0
    ensures p.bridgeCount >= 0.0 ==> r >= 0.0
  {
    var x := p.bridgeCount * 1.5;
    if x <= 10.0 then x else 10.0
  }

  /** How well the infrastructure copes with the current risk: 10 at no risk,
      losing half a point per risk point, never negative. */
  function RiskAdaptability(riskScore: real): (r: real)
    ensures r >= 0.0
    ensures 0.0 <= riskScore <= 10.0 ==> 5.0 <= r <= 10.0
    ensures riskScore >= 20.0 ==> r == 0.0
  {
    var x := 10.0 - riskScore * 0.5;
    if x < 0.0 then 0.0 else x
  }

  /** The sub-factors of a profile at a given risk. */
  function Factors(p: InfrastructureProfile, riskScore: real): ResilienceFactors
  {
    ResilienceFactors(
      (BuildingAgeFactor(p) + BuildingDensityFactor(p)) / 2.0,
      (p.roadQuality / 10.0 + BridgeAgeFactor(p) + BridgeCountFactor(p)) / 3.0,
      p.drainCapacity / 10.0,
      p.utilityResilience / 10.0,
      p.emergencyReadiness / 10.0,
      if p.recentMaintenance then 1.0 else 0.0,
      RiskAdaptability(riskScore))
  }

  /** The sub-factors on a 0-10 scale: the building and risk terms always lie
      in range, the transport term does for a road quality in [0, 100] and a
      non-negative bridge count, and the maintenance bonus is 1 or 0. */
  lemma FactorRanges(p: InfrastructureProfile, riskScore: real)
    ensures var f := Factors(p, riskScore);
      0.0 <= f.buildingResilience <= 10.0 &&
      (0.0 <= p.roadQuality <= 100.0 && p.bridgeCount >= 0.0 ==> 0.0 <= f.transportationResilience <= 10.0) &&
      (f.maintenanceBonus == 1.0 <==> p.recentMaintenance) &&
      (f.maintenanceBonus == 0.0 <==> !p.recentMaintenance) &&
      f.riskAdaptability >= 0.0 &&
      (0.0 <= riskScore <= 10.0 ==> 5.0 <= f.riskAdaptability <= 10.0)
  {
  }

  /** Weighted base resilience with the maintenance bonus, before the risk. */
  function BaseResilience(f: ResilienceFactors): real
  {
    f.buildingResilience * 0.25 + f.transportationResilience * 0.25 + f.drainageResilience * 0.2 +
    f.utilityResilience * 0.15 + f.emergencyReadiness * 0.15 + f.maintenanceBonus * 0.5
  }

  /** The score before the random variation and the final clamp. */
  function UnjitteredScore(f: ResilienceFactors): real
  {
    BaseResilience(f) * 0.7 + f.riskAdaptability * 0.3
  }

  /** The resilience computation: the profile, its sub-factors at the given
      risk, and the jittered score clamped to [0, 10]. */
  function InfrastructureResilience(locationName: string, riskScore: real,
                                    custom: Option<InfrastructureProfile>, jitter: real): (r: ResilienceData)
    ensures 0.0 <= r.resilienceScore <= 10.0
    ensures r.location == locationName && r.riskScore == riskScore
    ensures r.infrastructure == ProfileFor(locationName, custom)
    ensures r.factors == Factors(r.infrastructure, riskScore)
  {
    var p := ProfileFor(locationName, custom);
    var f := Factors(p, riskScore);
    var score := Clamp10(UnjitteredScore(f) + jitter);
    ResilienceData(locationName, score, f, riskScore, p)
  }

  /** The score stays in [0, 10] and the variation moves it by at most 0.3
      from the clamped deterministic value; the profile is the custom one,
      else the table entry, else (for an unknown name) the default; the
      risk-adaptability term is never negative. */
  lemma InfrastructureResilienceContract(locationName: string, riskScore: real,
                                         custom: Option<InfrastructureProfile>, jitter: real)
    requires -0.3 <= jitter < 0.3
    ensures var r := InfrastructureResilience(locationName, riskScore, custom, jitter);
      0.0 <= r.resilienceScore <= 10.0 &&
      r.location == locationName && r.riskScore == riskScore &&
      (custom.Some? ==> r.infrastructure == custom.value) &&
      (custom.None? && locationName !in InfrastructureDatabase ==> r.infrastructure == DefaultProfile) &&
      (custom.None? && locationName in InfrastructureDatabase ==>
         r.infrastructure == InfrastructureDatabase[locationName]) &&
      r.factors == Factors(r.infrastructure, riskScore) &&
      -0.3 <= r.resilienceScore - Clamp10(UnjitteredScore(r.factors)) <= 0.3 &&
      r.factors.riskAdaptability >= 0.0 &&
      0.0 <= r.factors.buildingResilience <= 10.0 &&
      r.factors.maintenanceBonus == (if r.infrastructure.recentMaintenance then 1.0 else 0.0)
  {
  }

  /** Deterministic apart from the jitter: two unknown names get the same
      score and factors, and a higher risk never raises resilience. */
  lemma UnknownLocationsScoreAlike(n1: string, n2: string, riskScore: real, jitter: real)
    requires n1 !in InfrastructureDatabase && n2 !in InfrastructureDatabase
    ensures InfrastructureResilience(n1, riskScore, None, jitter).resilienceScore
         == InfrastructureResilience(n2, riskScore, None, jitter).resilienceScore
    ensures InfrastructureResilience(n1, riskScore, None, jitter).factors
         == InfrastructureResilience(n2, riskScore, None, jitter).factors
  {
  }

  lemma ResilienceNonIncreasingInRisk(name: string, custom: Option<InfrastructureProfile>,
                                      r1: real, r2: real, jitter: real)
    requires r1 <= r2
    ensures InfrastructureResilience(name, r2, custom, jitter).resilienceScore
         <= InfrastructureResilience(name, r1, custom, jitter).resilienceScore
  {
  }

  /** The default profile at zero risk and zero variation scores 7.1825:
      base 5.975 (building 4.5, transport 6.5, drainage 6, utility 6.5,
      emergency 7, no bonus), adaptability 10. */
  lemma DefaultProfileExample()
    ensures InfrastructureResilience("Gorakhpur", 0.0, None, 0.0).resilienceScore == 7.1825
  {
    assert "Gorakhpur" !in InfrastructureDatabase;
  }
}

=== FILE: scoring.dfy ===
/** The two landslide risk scorers and the historical-similarity bonus they share.
    Scores are unrounded reals; see README for what rounding would change. */
module RiskScoring {
  import opened Entities

  function Abs(x: real): (r: real)
    ensures r >= 0.0 && (r == x || r == -x)
  {
    if x < 0.0 then -x else x
  }

  function Min(a: real, b: real): (m: real)
    ensures m <= a && m <= b && (m == a || m == b)
  {
    if a <= b then a else b
  }

  // ---------------------------------------------------------------------------
  // Normalised factor risks
  // ---------------------------------------------------------------------------

  /** min(1, x / 100): the normalisation shared by rainfall, soil moisture and
      vegetation density. Never above 1; saturates at 100; non-negative for
      non-negative input. Negative input is not clamped from below. */
  function CappedRatio(x: real): (r: real)
    ensures r <= 1.0
    ensures x >= 100.0 ==> r == 1.0
    ensures x >= 0.0 ==> r >= 0.0
    ensures x < 100.0 ==> r < 1.0
  {
    Min(1.0, x / 100.0)
  }

  /** min(1, |t - 15| / 20): zero exactly at the optimum 15 degrees, growing with
      the distance from it and saturating 20 degrees away. */
  function TemperatureRisk(temperature: real): (r: real)
    ensures 0.0 <= r <= 1.0
    ensures r == 0.0 <==> temperature == 15.0
    ensures (temperature >= 35.0 || temperature <= -5.0) ==> r == 1.0
  {
    Min(1.0, Abs(temperature - 15.0) / 20.0)
  }

  /** Extreme temperatures raise the risk: it never falls as the distance from
      15 degrees grows. */
  lemma TemperatureRiskGrowsWithDistance(t1: real, t2: real)
    requires Abs(t1 - 15.0) <= Abs(t2 - 15.0)
    ensures TemperatureRisk(t1) <= TemperatureRisk(t2)
  {
  }

  // ---------------------------------------------------------------------------
  // Historical similarity bonus
  // ---------------------------------------------------------------------------

  /** A record is similar to the current conditions when it carries all three
      keys and lies strictly inside every window: rainfall within 10,
      temperature within 5, soil moisture within 10. */
  ghost predicate SimilarConditions(rec: HistoryRecord, rainfall: real, temperature: real, soilMoisture: real)
  {
    rec.rainfall.Some? && rec.temperature.Some? && rec.soilMoisture.Some? &&
    Abs(rec.rainfall.value - rainfall) < 10.0 &&
    Abs(rec.temperature.value - temperature) < 5.0 &&
    Abs(rec.soilMoisture.value - soilMoisture) < 10.0
  }

  predicate Complete(rec: HistoryRecord)
  {
    rec.rainfall.Some? && rec.temperature.Some? && rec.soilMoisture.Some?
  }

  /** The similarity test on one record, read key by key in the order of the
      short-circuit conjunction: None is the KeyError raised by reading a
      missing key that the conjunction reaches. */
  function RecordTest(rec: HistoryRecord, rainfall: real, temperature: real, soilMoisture: real): (r: Option<bool>)
    ensures r == Some(true) <==> SimilarConditions(rec, rainfall, temperature, soilMoisture)
    ensures Complete(rec) ==> r.Some?
    ensures rec.rainfall.None? ==> r.None?
  {
    match rec.rainfall
    case None => None
    case Some(rr) =>
      if !(Abs(rr - rainfall) < 10.0) then Some(false)
      else
        match rec.temperature
        case None => None
        case Some(tt) =>
          if !(Abs(tt - temperature) < 5.0) then Some(false)
          else
            match rec.soilMoisture
            case None => None
            case Some(ss) => Some(Abs(ss - soilMoisture) < 10.0)
  }

  /** Number of similar records in the list, or None when scanning it raises a
      KeyError on some record. */
  function CountSimilar(history: seq<HistoryRecord>, rainfall: real, temperature: real, soilMoisture: real): (r: Option<nat>)
    ensures r.Some? ==> r.value <= |history|
    decreases |history|
  {
    if |history| == 0 then Some(0)
    else
      var n := |history| - 1;
      match CountSimilar(history[..n], rainfall, temperature, soilMoisture)
      case None => None
      case Some(c) =>
        match RecordTest(history[n], rainfall, temperature, soilMoisture)
        case None => None
        case Some(similar) => Some(if similar then c + 1 else c)
  }

  /** The bonus: 0 for an empty list, 2 * similar / total otherwise, and 0 when
      the scan raised (the exception is caught and 0.0 returned). */
  function HistoricalRisk(history: seq<HistoryRecord>, rainfall: real, temperature: real, soilMoisture: real): (r: real)
    ensures 0.0 <= r <= 2.0
    ensures |history| == 0 ==> r == 0.0
  {
    if |history| == 0 then 0.0
    else
      match CountSimilar(history, rainfall, temperature, soilMoisture)
      case None => 0.0
      case Some(c) =>
        RatioAtMostOne(c, |history|);
        2.0 * ((c as real) / (|history| as real))
  }

  lemma RatioAtMostOne(c: nat, n: nat)
    requires 0 < n && c <= n
    ensures 0.0 <= (c as real) / (n as real) <= 1.0
  {
    var q := (c as real) / (n as real);
    assert q * (n as real) == c as real;
  }

  /** The loop of the source: count similar records one by one, giving up with
      0.0 at the first KeyError. */
  method AnalyzeHistoricalData(rainfall: real, temperature: real, soilMoisture: real, history: seq<HistoryRecord>)
    returns (risk: real)
    ensures risk == HistoricalRisk(history, rainfall, temperature, soilMoisture)
    ensures 0.0 <= risk <= 2.0
  {
    if |history| == 0 {
      return 0.0;
    }
    var count: nat := 0;
    var i := 0;
    while i < |history|
      invariant 0 <= i <= |history|
      invariant CountSimilar(history[..i], rainfall, temperature, soilMoisture) == Some(count)
    {
      assert history[..i + 1][..i] == history[..i];
      var test := RecordTest(history[i], rainfall, temperature, soilMoisture);
      if test.None? {
        FailurePersists(history, i + 1, rainfall, temperature, soilMoisture);
        return 0.0;
      }
      if test.value {
        count := count + 1;
      }
      i := i + 1;
    }
    assert history[..i] == history;
    risk := 2.0 * ((count as real) / (|history| as real));
  }

  /** Once a prefix of the list raises, the whole scan raises. */
  lemma {:induction false} FailurePersists(history: seq<HistoryRecord>, k: nat, rainfall: real, temperature: real, soilMoisture: real)
    requires k <= |history|
    requires CountSimilar(history[..k], rainfall, temperature, soilMoisture).None?
    ensures CountSimilar(history, rainfall, temperature, soilMoisture).None?
    decreases |history| - k
  {
    if k < |history| {
      var h' := history[..k + 1];
      assert h'[..k] == history[..k];
      FailurePersists(history, k + 1, rainfall, temperature, soilMoisture);
    } else {
      assert history[..k] == history;
    }
  }

  /** A record that raises anywhere in the list masks the whole bonus to 0. */
  lemma {:induction false} MissingKeyMasksHistory(history: seq<HistoryRecord>, k: nat, rainfall: real, temperature: real, soilMoisture: real)
    requires k < |history|
    requires RecordTest(history[k], rainfall, temperature, soilMoisture).None?
    ensures HistoricalRisk(history, rainfall, temperature, soilMoisture) == 0.0
  {
    var h' := history[..k + 1];
    assert h'[..k] == history[..k];
    assert h'[k] == history[k];
    FailurePersists(history, k + 1, rainfall, temperature, soilMoisture);
  }

  /** Complete records never raise, and the count is then exact: when every
      record is similar the bonus is the full 2, when none is it is 0. */
  lemma {:induction false} CompleteHistoryCount(history: seq<HistoryRecord>, rainfall: real, temperature: real, soilMoisture: real)
    requires forall i :: 0 <= i < |history| ==> Complete(history[i])
    ensures CountSimilar(history, rainfall, temperature, soilMoisture).Some?
    ensures (forall i :: 0 <= i < |history| ==> SimilarConditions(history[i], rainfall, temperature, soilMoisture))
            ==> CountSimilar(history, rainfall, temperature, soilMoisture) == Some(|history|)
    ensures (forall i :: 0 <= i < |history| ==> !SimilarConditions(history[i], rainfall, temperature, soilMoisture))
            ==> CountSimilar(history, rainfall, temperature, soilMoisture) == Some(0)
    decreases |history|
  {
    if |history| > 0 {
      var n := |history| - 1;
      var p := history[..n];
      assert forall i :: 0 <= i < |p| ==> p[i] == history[i];
      CompleteHistoryCount(p, rainfall, temperature, soilMoisture);
    }
  }

  lemma AllSimilarGivesFullBonus(history: seq<HistoryRecord>, rainfall: real, temperature: real, soilMoisture: real)
    requires |history| > 0
    requires forall i :: 0 <= i < |history| ==> SimilarConditions(history[i], rainfall, temperature, soilMoisture)
    ensures HistoricalRisk(history, rainfall, temperature, soilMoisture) == 2.0
  {
    CompleteHistoryCount(history, rainfall, temperature, soilMoisture);
  }

  /** No similar record gives no bonus, whether or not some test raises. */
  lemma NoneSimilarGivesNoBonus(history: seq<HistoryRecord>, rainfall: real, temperature: real, soilMoisture: real)
    requires forall i :: 0 <= i < |history| ==> !SimilarConditions(history[i], rainfall, temperature, soilMoisture)
    ensures HistoricalRisk(history, rainfall, temperature, soilMoisture) == 0.0
  {
    if k :| 0 <= k < |history| && RecordTest(history[k], rainfall, temperature, soilMoisture).None? {
      MissingKeyMasksHistory(history, k, rainfall, temperature, soilMoisture);
    } else {
      CountSimilarCountsIndices(history, rainfall, temperature, soilMoisture);
      assert SimilarIndices(history, rainfall, temperature, soilMoisture) == {};
    }
  }

  /** The indices of the similar records. */
  ghost function SimilarIndices(history: seq<HistoryRecord>, rainfall: real, temperature: real, soilMoisture: real): set<nat>
  {
    set i: nat | i < |history| && SimilarConditions(history[i], rainfall, temperature, soilMoisture)
  }

  /** Extending the list by one record adds its index exactly when it is similar. */
  lemma SimilarIndicesStep(history: seq<HistoryRecord>, rainfall: real, temperature: real, soilMoisture: real)
    requires |history| > 0
    ensures var n := |history| - 1;
      var before := SimilarIndices(history[..n], rainfall, temperature, soilMoisture);
      n !in before &&
      SimilarIndices(history, rainfall, temperature, soilMoisture) ==
        if SimilarConditions(history[n], rainfall, temperature, soilMoisture) then before + {n} else before
  {
  }

  /** When no record's test raises (complete records, or records whose
      missing keys the short-circuit test never reaches), the scan does not
      raise and counts exactly the indices whose record is similar. */
  lemma {:induction false} CountSimilarCountsIndices(history: seq<HistoryRecord>, rainfall: real, temperature: real, soilMoisture: real)
    requires forall i :: 0 <= i < |history| ==> RecordTest(history[i], rainfall, temperature, soilMoisture).Some?
    ensures CountSimilar(history, rainfall, temperature, soilMoisture)
            == Some(|SimilarIndices(history, rainfall, temperature, soilMoisture)|)
    decreases |history|
  {
    if |history| > 0 {
      var n := |history| - 1;
      var p := history[..n];
      assert forall i :: 0 <= i < |p| ==> p[i] == history[i];
      CountSimilarCountsIndices(p, rainfall, temperature, soilMoisture);
      SimilarIndicesStep(history, rainfall, temperature, soilMoisture);
    }
  }

  /** On a non-empty list none of whose tests raises, the bonus is twice the
      share of similar records. */
  lemma BonusIsSimilarShare(history: seq<HistoryRecord>, rainfall: real, temperature: real, soilMoisture: real)
    requires |history| > 0
    requires forall i :: 0 <= i < |history| ==> RecordTest(history[i], rainfall, temperature, soilMoisture).Some?
    ensures HistoricalRisk(history, rainfall, temperature, soilMoisture)
            == 2.0 * ((|SimilarIndices(history, rainfall, temperature, soilMoisture)| as real) / (|history| as real))
  {
    CountSimilarCountsIndices(history, rainfall, temperature, soilMoisture);
  }

  /** The windows are strict: a record exactly 10 mm of rain away does not count. */
  lemma WindowIsStrict(rainfall: real, temperature: real, soilMoisture: real)
    ensures HistoricalRisk([HistoryRecord(Some(rainfall + 10.0), Some(temperature), Some(soilMoisture))],
                           rainfall, temperature, soilMoisture) == 0.0
  {
    var h := [HistoryRecord(Some(rainfall + 10.0), Some(temperature), Some(soilMoisture))];
    assert h[..0] == [];
  }

  // ---------------------------------------------------------------------------
  // Basic scorer
  // ---------------------------------------------------------------------------

  const BasicRainfallWeight: real := 0.5
  const BasicSoilMoistureWeight: real := 0.3
  const BasicTemperatureWeight: real := 0.2

  /** The weighted sum scaled to 0-10, before any historical bonus. */
  function BaseRiskScore(rainfall: real, temperature: real, soilMoisture: real): (b: real)
    ensures b <= 10.0
    ensures rainfall >= 0.0 && soilMoisture >= 0.0 ==> b >= 0.0
  {
    (BasicRainfallWeight * CappedRatio(rainfall) +
     BasicSoilMoistureWeight * CappedRatio(soilMoisture) +
     BasicTemperatureWeight * TemperatureRisk(temperature)) * 10.0
  }

  /** The basic risk score. An empty history is treated as no history; a
      non-empty one adds a bonus of at most 2 and the sum is capped at 10. */
  function RiskScore(rainfall: real, temperature: real, soilMoisture: real, history: seq<HistoryRecord>): (r: real)
    ensures r <= 10.0
    ensures rainfall >= 0.0 && soilMoisture >= 0.0 ==> 0.0 <= r
    ensures |history| == 0 ==> r == BaseRiskScore(rainfall, temperature, soilMoisture)
    ensures BaseRiskScore(rainfall, temperature, soilMoisture) <= r <= BaseRiskScore(rainfall, temperature, soilMoisture) + 2.0
    ensures |history| > 0 ==>
      r == Min(10.0, BaseRiskScore(rainfall, temperature, soilMoisture) + HistoricalRisk(history, rainfall, temperature, soilMoisture))
  {
    var base := BaseRiskScore(rainfall, temperature, soilMoisture);
    if |history| > 0 then Min(10.0, base + HistoricalRisk(history, rainfall, temperature, soilMoisture))
    else base
  }

  /** Without history the score is non-decreasing in rainfall and soil moisture. */
  lemma RiskScoreMonotone(r1: real, r2: real, s1: real, s2: real, temperature: real)
    requires r1 <= r2 && s1 <= s2
    ensures RiskScore(r1, temperature, s1, []) <= RiskScore(r2, temperature, s2, [])
  {
  }

  /** Without history the score never falls as the temperature moves away from
      15 degrees. */
  lemma RiskScoreTemperatureMonotone(rainfall: real, soilMoisture: real, t1: real, t2: real)
    requires Abs(t1 - 15.0) <= Abs(t2 - 15.0)
    ensures RiskScore(rainfall, t1, soilMoisture, []) <= RiskScore(rainfall, t2, soilMoisture, [])
  {
    TemperatureRiskGrowsWithDistance(t1, t2);
  }

  /** A worked example: 120 mm of rain (saturated), 15 degrees and 80 percent
      soil moisture score 0.5 * 10 + 0.3 * 8 = 7.4. */
  lemma RiskScoreExample()
    ensures RiskScore(120.0, 15.0, 80.0, []) == 7.4
  {
  }

  /** Nothing clamps the score from below: negative rainfall gives a negative
      score. */
  lemma NegativeInputExample()
    ensures RiskScore(-100.0, 15.0, 0.0, []) == -5.0
  {
  }

  /** Without history the score depends on temperature only through |t - 15|,
      and rainfall or soil moisture at or above 100 saturate. */
  lemma RiskScoreSymmetryAndSaturation(rainfall: real, soilMoisture: real, d: real, r1: real, r2: real)
    ensures RiskScore(rainfall, 15.0 + d, soilMoisture, []) == RiskScore(rainfall, 15.0 - d, soilMoisture, [])
    ensures r1 >= 100.0 && r2 >= 100.0 ==>
      RiskScore(r1, 15.0 + d, soilMoisture, []) == RiskScore(r2, 15.0 + d, soilMoisture, [])
    ensures r1 >= 100.0 && r2 >= 100.0 ==>
      RiskScore(rainfall, 15.0 + d, r1, []) == RiskScore(rainfall, 15.0 + d, r2, [])
  {
  }

  /** With a history the score is NOT monotone in rainfall: more rain can move
      the current conditions out of a record's window and lose the bonus. */
  lemma HistoryBreaksMonotonicity()
    ensures var h := [HistoryRecord(Some(0.0), Some(15.0), Some(0.0))];
            RiskScore(0.0, 15.0, 0.0, h) == 2.0 && RiskScore(10.0, 15.0, 0.0, h) == 0.5
  {
    var h := [HistoryRecord(Some(0.0), Some(15.0), Some(0.0))];
    assert h[..0] == [];
    assert CountSimilar(h, 0.0, 15.0, 0.0) == Some(1);
    assert HistoricalRisk(h, 0.0, 15.0, 0.0) == 2.0;
    assert BaseRiskScore(0.0, 15.0, 0.0) == 0.0;
    assert CountSimilar(h, 10.0, 15.0, 0.0) == Some(0);
    assert HistoricalRisk(h, 10.0, 15.0, 0.0) == 0.0;
    assert BaseRiskScore(10.0, 15.0, 0.0) == 0.5;
  }

  // ---------------------------------------------------------------------------
  // Enhanced scorer
  // ---------------------------------------------------------------------------

  const RainfallWeight: real := 0.45
  const SoilMoistureWeight: real := 0.25
  const TemperatureWeight: real := 0.15
  const TerrainWeight: real := 0.10
  const VegetationWeight: real := 0.05

  /** ASCII lower-casing of one character. */
  function LowerChar(c: char): char
  {
    if 'A' <= c <= 'Z' then (c as int + 32) as char else c
  }

  function Lower(s: string): (l: string)
    ensures |l| == |s|
    ensures forall i :: 0 <= i < |s| ==> l[i] == LowerChar(s[i])
    decreases |s|
  {
    if |s| == 0 then [] else [LowerChar(s[0])] + Lower(s[1..])
  }

  /** Substring test: `word in s`. */
  predicate Contains(s: string, word: string)
    decreases |s|
  {
    (|word| <= |s| && s[..|word|] == word) || (|s| > 0 && Contains(s[1..], word))
  }

  /** The word occurs in s starting at position i. */
  predicate OccursAt(s: string, word: string, i: nat)
  {
    i + |word| <= |s| && s[i..i + |word|] == word
  }

  /** Past the first position, an occurrence in s is one in its tail. */
  lemma OccursShift(s: string, word: string, i: nat)
    requires |s| > 0 && i > 0
    ensures OccursAt(s, word, i) <==> OccursAt(s[1..], word, i - 1)
  {
    if i + |word| <= |s| {
      assert s[i..i + |word|] == s[1..][i - 1..i - 1 + |word|];
    }
  }

  /** The substring test holds exactly when the word occurs at some position. */
  lemma {:induction false} ContainsOccurs(s: string, word: string)
    ensures Contains(s, word) <==> exists i: nat :: OccursAt(s, word, i)
    decreases |s|
  {
    if |word| <= |s| && s[..|word|] == word {
      assert OccursAt(s, word, 0);
    } else if |s| > 0 {
      var t := s[1..];
      ContainsOccurs(t, word);
      assert !OccursAt(s, word, 0);
      forall i: nat | OccursAt(s, word, i)
        ensures i > 0 && OccursAt(t, word, i - 1)
      {
        if i > 0 {
          OccursShift(s, word, i);
        }
      }
      if Contains(t, word) {
        var j: nat :| OccursAt(t, word, j);
        OccursShift(s, word, j + 1);
      }
    } else {
      forall i: nat | OccursAt(s, word, i)
        ensures false
      {
      }
    }
  }

  /** Terrain risk: 0.9 for anything mentioning a mountain, else 0.6 for a
      hill, else 0.2 for a plain, else (also for a missing or empty
      description) 0.5. The test is case-insensitive and the first matching
      word in that order wins. */
  function TerrainRisk(terrain: Option<string>): (r: real)
    ensures 0.2 <= r <= 0.9
  {
    match terrain
    case None => 0.5
    case Some(t) =>
      if |t| == 0 then 0.5
      else
        var l := Lower(t);
        if Contains(l, "mountain") then 0.9
        else if Contains(l, "hill") then 0.6
        else if Contains(l, "plain") then 0.2
        else 0.5
  }

  /** Each value of the terrain risk is reached exactly in its case. */
  lemma TerrainRiskCases(terrain: Option<string>)
    ensures TerrainRisk(terrain) == 0.9 <==> terrain.Some? && Contains(Lower(terrain.value), "mountain")
    ensures TerrainRisk(terrain) == 0.6 <==> terrain.Some? && !Contains(Lower(terrain.value), "mountain")
                                             && Contains(Lower(terrain.value), "hill")
    ensures TerrainRisk(terrain) == 0.2 <==> terrain.Some? && !Contains(Lower(terrain.value), "mountain")
                                             && !Contains(Lower(terrain.value), "hill")
                                             && Contains(Lower(terrain.value), "plain")
    ensures TerrainRisk(terrain) == 0.5 <==> terrain.None? || (!Contains(Lower(terrain.value), "mountain")
                                             && !Contains(Lower(terrain.value), "hill")
                                             && !Contains(Lower(terrain.value), "plain"))
  {
  }

  lemma LowerIdempotent(s: string)
    ensures Lower(Lower(s)) == Lower(s)
  {
    assert forall i :: 0 <= i < |s| ==> LowerChar(LowerChar(s[i])) == LowerChar(s[i]);
  }

  /** Upper- and lower-case spellings of a terrain get the same risk. */
  lemma TerrainRiskCaseInsensitive(t: string)
    ensures TerrainRisk(Some(t)) == TerrainRisk(Some(Lower(t)))
  {
    LowerIdempotent(t);
  }

  /** Any mountain terrain is strictly riskier than any plain that mentions no
      mountain or hill. */
  lemma MountainAbovePlain(m: string, p: string)
    requires Contains(Lower(m), "mountain")
    requires !Contains(Lower(p), "mountain") && !Contains(Lower(p), "hill") && Contains(Lower(p), "plain")
    ensures TerrainRisk(Some(m)) > TerrainRisk(Some(p))
  {
    TerrainRiskCases(Some(m));
    TerrainRiskCases(Some(p));
  }

  /** A terrain naming none of the three words is moderate. */
  lemma UnlistedTerrainExample()
    ensures TerrainRisk(Some("valley")) == 0.5
  {
    var v := Lower("valley");
    AbsentInitialExcludes(v, "mountain");
    AbsentInitialExcludes(v, "hill");
    AbsentInitialExcludes(v, "plain");
  }

  /** A word whose first letter does not occur in s is not a substring of s. */
  lemma {:induction false} AbsentInitialExcludes(s: string, word: string)
    requires |word| > 0 && forall i :: 0 <= i < |s| ==> s[i] != word[0]
    ensures !Contains(s, word)
    decreases |s|
  {
    if |word| <= |s| {
      assert s[..|word|][0] == s[0];
    }
    if |s| > 0 {
      AbsentInitialExcludes(s[1..], word);
    }
  }

  /** Vegetation risk is the inverse of density (more cover, less risk);
      0.5 when the density is unknown. */
  function VegetationRisk(density: Option<real>): (r: real)
    ensures r >= 0.0
    ensures density.None? ==> r == 0.5
    ensures density.Some? && density.value >= 0.0 ==> r <= 1.0
    ensures density.Some? && density.value >= 100.0 ==> r == 0.0
  {
    match density
    case None => 0.5
    case Some(d) => 1.0 - CappedRatio(d)
  }

  /** More vegetation means less risk. */
  lemma VegetationRiskInverse(d1: real, d2: real)
    requires d1 <= d2
    ensures VegetationRisk(Some(d2)) <= VegetationRisk(Some(d1))
  {
  }

  /** Score and factor breakdown of the enhanced scorer. Each factor is a
      weighted risk scaled by 10; historicalFactor is the bonus itself. */
  datatype RiskData = RiskData(
    riskScore: real,
    rainfallFactor: real,
    soilMoistureFactor: real,
    temperatureFactor: real,
    terrainFactor: real,
    vegetationFactor: real,
    historicalFactor: real)

  function FactorSum(d: RiskData): real
  {
    d.rainfallFactor + d.soilMoistureFactor + d.temperatureFactor + d.terrainFactor + d.vegetationFactor
  }

  /** The enhanced score: the five weighted risks scaled to 0-10, plus the
      historical bonus capped at 10 when a history is given. */
  function EnhancedRiskScore(rainfall: real, temperature: real, soilMoisture: real,
                             history: seq<HistoryRecord>, terrain: Option<string>,
                             vegetation: Option<real>): (r: RiskData)
    ensures 0.0 <= r.historicalFactor <= 2.0
    ensures |history| == 0 ==> r.historicalFactor == 0.0
    ensures |history| > 0 ==> r.riskScore <= 10.0
  {
    var rainfallC := RainfallWeight * CappedRatio(rainfall);
    var soilC := SoilMoistureWeight * CappedRatio(soilMoisture);
    var temperatureC := TemperatureWeight * TemperatureRisk(temperature);
    var terrainC := TerrainWeight * TerrainRisk(terrain);
    var vegetationC := VegetationWeight * VegetationRisk(vegetation);
    var score := (rainfallC + soilC + temperatureC + terrainC + vegetationC) * 10.0;
    var historical := if |history| > 0 then HistoricalRisk(history, rainfall, temperature, soilMoisture) else 0.0;
    var total := if |history| > 0 then Min(10.0, score + historical) else score;
    RiskData(total, rainfallC * 10.0, soilC * 10.0, temperatureC * 10.0, terrainC * 10.0,
             vegetationC * 10.0, historical)
  }

  /** Each factor is its weight times its own risk, scaled by 10, and depends
      on its own input alone; the historical factor is the bonus (0 without
      history). The score is the sum of the factors, plus the bonus and capped
      at 10 when a history is given. */
  lemma EnhancedRiskScoreFactors(rainfall: real, temperature: real, soilMoisture: real,
                                 history: seq<HistoryRecord>, terrain: Option<string>, vegetation: Option<real>)
    ensures var r := EnhancedRiskScore(rainfall, temperature, soilMoisture, history, terrain, vegetation);
      r.rainfallFactor == RainfallWeight * CappedRatio(rainfall) * 10.0 &&
      r.soilMoistureFactor == SoilMoistureWeight * CappedRatio(soilMoisture) * 10.0 &&
      r.temperatureFactor == TemperatureWeight * TemperatureRisk(temperature) * 10.0 &&
      r.terrainFactor == TerrainWeight * TerrainRisk(terrain) * 10.0 &&
      r.vegetationFactor == VegetationWeight * VegetationRisk(vegetation) * 10.0 &&
      r.historicalFactor == HistoricalRisk(history, rainfall, temperature, soilMoisture) &&
      (|history| == 0 ==> r.riskScore == FactorSum(r)) &&
      (|history| > 0 ==> r.riskScore == Min(10.0, FactorSum(r) + r.historicalFactor))
  {
  }

  /** The five weights sum to 1 and each risk is at most 1 (vegetation for a
      non-negative density), so the score never exceeds 10; with history it is
      capped at 10 anyway. Non-negative rainfall and soil moisture give a
      non-negative score. */
  lemma EnhancedRiskScoreBounds(rainfall: real, temperature: real, soilMoisture: real,
                                history: seq<HistoryRecord>, terrain: Option<string>, vegetation: Option<real>)
    ensures var r := EnhancedRiskScore(rainfall, temperature, soilMoisture, history, terrain, vegetation);
      ((vegetation.None? || vegetation.value >= 0.0 || |history| > 0) ==> r.riskScore <= 10.0) &&
      (rainfall >= 0.0 && soilMoisture >= 0.0 ==> r.riskScore >= 0.0)
  {
  }

  /** Without history the enhanced score is non-decreasing in rainfall and
      soil moisture, and depends on temperature only through |t - 15|. */
  lemma EnhancedRiskScoreMonotone(r1: real, r2: real, s1: real, s2: real, temperature: real, d: real,
                                  terrain: Option<string>, vegetation: Option<real>)
    requires r1 <= r2 && s1 <= s2
    ensures EnhancedRiskScore(r1, temperature, s1, [], terrain, vegetation).riskScore
         <= EnhancedRiskScore(r2, temperature, s2, [], terrain, vegetation).riskScore
    ensures EnhancedRiskScore(r1, 15.0 + d, s1, [], terrain, vegetation)
         == EnhancedRiskScore(r1, 15.0 - d, s1, [], terrain, vegetation)
  {
  }

  /** With a history the enhanced score is not monotone in rainfall either:
      one similar record gives 2.75 at 0 mm and 1.2 at 10 mm. */
  lemma EnhancedHistoryBreaksMonotonicity()
    ensures var h := [HistoryRecord(Some(0.0), Some(15.0), Some(0.0))];
            EnhancedRiskScore(0.0, 15.0, 0.0, h, None, None).riskScore == 2.75 &&
            EnhancedRiskScore(10.0, 15.0, 0.0, h, None, None).riskScore == 1.2
  {
    var h := [HistoryRecord(Some(0.0), Some(15.0), Some(0.0))];
    assert h[..0] == [];
    assert CountSimilar(h, 0.0, 15.0, 0.0) == Some(1);
    assert HistoricalRisk(h, 0.0, 15.0, 0.0) == 2.0;
    assert CountSimilar(h, 10.0, 15.0, 0.0) == Some(0);
    assert HistoricalRisk(h, 10.0, 15.0, 0.0) == 0.0;
  }

  /** Without history the enhanced score never falls as the temperature moves
      away from 15 degrees, and never rises as the vegetation density grows. */
  lemma EnhancedRiskScoreDirections(rainfall: real, soilMoisture: real, t1: real, t2: real, d1: real, d2: real,
                                    terrain: Option<string>, vegetation: Option<real>)
    ensures Abs(t1 - 15.0) <= Abs(t2 - 15.0) ==>
      EnhancedRiskScore(rainfall, t1, soilMoisture, [], terrain, vegetation).riskScore
        <= EnhancedRiskScore(rainfall, t2, soilMoisture, [], terrain, vegetation).riskScore
    ensures d1 <= d2 ==>
      EnhancedRiskScore(rainfall, t1, soilMoisture, [], terrain, Some(d2)).riskScore
        <= EnhancedRiskScore(rainfall, t1, soilMoisture, [], terrain, Some(d1)).riskScore
  {
    if Abs(t1 - 15.0) <= Abs(t2 - 15.0) {
      TemperatureRiskGrowsWithDistance(t1, t2);
    }
    if d1 <= d2 {
      VegetationRiskInverse(d1, d2);
    }
  }

  /** Without history nothing caps the enhanced score: a density far below
      zero pushes it above 10. */
  lemma NegativeDensityExample()
    ensures EnhancedRiskScore(100.0, 35.0, 100.0, [], None, Some(-200.0)).riskScore == 10.5
  {
  }
}
